=== FILE: README.md ===
# SoundCloud uploader: a Dafny model

This project models the decision logic of a small web service that publishes an MP3 file to
SoundCloud by driving a headless browser logged in with exported session cookies. It covers
four parts:

- **the credential adapter** (`lib/cookies.ts`). This converts browser-exported cookies into
  the automation driver's cookie records. It also picks the credential source: the
  `SOUNDCLOUD_COOKIES` variable first, then `cookies.json`.
- **the upload pipeline** (`uploadToSoundCloud` in `lib/soundcloud-uploader.ts`). In order, it:
  - checks that the file exists and loads the cookies;
  - computes the launch options and launches Chrome or Chromium;
  - navigates with a bounded retry and checks for a sign-in redirect;
  - hands the file to the page, fills the title and clicks save;
  - derives the track URL and id, or falls back to the final page URL;
  - classifies errors;
  - closes the browser in a `finally` clause.
- **the upload endpoint** (`POST` in `app/api/upload/route.ts`). It validates the request in
  order, writes the upload to a sanitised temporary file, calls the uploader and removes the
  file afterwards.
- **the health endpoint** (`GET` in `app/api/status/route.ts`). It reports where the
  credentials come from and whether they hold an `oauth_token` cookie.

The model is purely functional. Everything the code observes becomes an input value:
- the environment, the file system and the clock;
- every answer of the browser driver, such as whether a launch or `page.goto` raises, whether
  a selector's first match is visible, and the link found after saving.

Base64 decoding and `JSON.parse` are function-valued inputs of `Cookies.Host`. A parsed value
is an array of elements, a non-array, or a parse error. Each operation returns its result
together with a trace of the driver or file-system calls it makes (`Automation.Action`,
`UploadRoute.RouteAction`). The ordering, exactly-once and nothing-else properties are
stated over these traces.

Modules:

| module | file | models |
|---|---|---|
| `Basics` | basics.dfy | `Option`, `Result`, JavaScript truthiness of optional strings and booleans |
| `Strings` | strings.dfy | `startsWith`/`endsWith`/`includes`, ASCII `toLowerCase`, digit runs, decimal rendering |
| `FirstMatch` | first_match.dfy | "first element of a list satisfying a test", the shape of every `for … break` loop |
| `Cookies` | cookies.dfy | `toPlaywrightCookie`, `loadCookies` |
| `Automation` | automation.dfy | the driver vocabulary: launch options, environment, action trace |
| `Launch` | launch.dfy | launch options and the Chrome-then-Chromium launch |
| `Navigation` | navigation.dfy | the three-attempt `page.goto` loop and the sign-in check |
| `Selectors` | selectors.dfy | the title and save selector walks |
| `TrackLink` | track_link.dfy | track URL, track id, final-URL fallback |
| `ErrorClassifier` | error_classifier.dfy | the `catch` block's message classification |
| `Uploader` | uploader.dfy | `uploadToSoundCloud` end to end |
| `UploadRoute` | upload_route.dfy | the upload endpoint |
| `StatusRoute` | status_route.dfy | the health endpoint |

## Model

| member | source | states |
|---|---|---|
| Strings.DigitRun | lib/soundcloud-uploader.ts:186 | the greedy `\d+`: a prefix of the input, all digits, and not extendable by a further digit |
| Strings.NatToString | app/api/upload/route.ts:43 | the decimal rendering of a number used in the temporary name is non-empty, all digits and has no leading zero |
| Strings.DecimalRoundTrip | app/api/upload/route.ts:43 | reading the rendered digits back gives the number, so distinct timestamps give distinct stamps |
| FirstMatch.FirstIndex | lib/soundcloud-uploader.ts:137-143 | a `for … break` walk stops at the first element passing the test; nothing earlier passes; it runs off the end only when no element passes |
| FirstMatch.LaterDuplicateNeverChosen | lib/soundcloud-uploader.ts:131-136 | a repeated entry of a selector list can never be the one a walk stops at |
| FirstMatch.DropLaterDuplicate | lib/soundcloud-uploader.ts:131-136 | deleting a later duplicate from a list does not change which element a walk finds |
| Cookies.NormalizeDomain | lib/cookies.ts:19 | a host-only domain is kept; any other gets a leading dot exactly when it lacks one |
| Cookies.NormalizeDomainIdempotent | lib/cookies.ts:19 | normalising the domain twice is normalising it once |
| Cookies.MapSameSite | lib/cookies.ts:20-21 | a missing or "unspecified" `sameSite` means Lax |
| Cookies.SameSiteRoundTrip | lib/cookies.ts:20-21 | the mapping undoes the browser's export of each policy; only "lax", "unspecified" and absence collapse onto Lax |
| Cookies.Expiry | lib/cookies.ts:22 | session cookies and a missing or zero expiration date get 9999999999; otherwise the expiry is the date rounded down to whole seconds |
| Cookies.ToPlaywrightCookie | lib/cookies.ts:18-34 | name and value are copied; a missing or empty path becomes "/" and any other path is kept; a missing `httpOnly`/`secure` is false; domain, `sameSite` and expiry follow the rules above |
| Cookies.ExportRoundTrip | lib/cookies.ts:18-34 | converting a browser's export of any driver cookie with a non-empty path and non-zero expiry gives that cookie back |
| Cookies.ConvertAll | lib/cookies.ts:42 | mapping the conversion over an array succeeds exactly when every element is a cookie object; the result has the array's length and order; otherwise the error is that of the first element that cannot be converted |
| Cookies.LoadFromFile | lib/cookies.ts:48-61 | a missing file is "not configured"; a read error or a parse error escapes as that raw error; an empty array or a non-array is "empty or invalid"; a non-empty array gives the converted cookies, or the error of the first element that cannot be converted; a successful load is never empty |
| Cookies.LoadCookies | lib/cookies.ts:36-62 | "SOUNDCLOUD_COOKIES invalid" exactly when the variable is set and its value fails to parse, or parses to a non-empty array whose conversion fails; a non-empty array that converts gives those cookies; an unset or empty variable leaves the result to the file; a successful load is never empty |
| Cookies.EnvIgnoresFile | lib/cookies.ts:37-42 | a variable holding a non-empty array decides the result alone: any cookies file gives the same result, namely the converted array |
| Cookies.EnvFallsThrough | lib/cookies.ts:38-48 | a variable that parses to an empty array or a non-array behaves exactly as if it were unset |
| Launch.Without | lib/soundcloud-uploader.ts:66 | filtering removes every occurrence of the element and keeps the count of every other one |
| Launch.WithoutConcat | lib/soundcloud-uploader.ts:66 | filtering works piecewise over a concatenation, so the kept switches keep their order |
| Launch.ProxyArgs | lib/soundcloud-uploader.ts:27-45 | with a proxy the switch list loses exactly its last entry, "--no-proxy-server" |
| Launch.ProxyServer | lib/soundcloud-uploader.ts:58 | `HTTP_PROXY` wins when non-empty, else `HTTPS_PROXY`; no proxy exactly when both are unset or empty |
| Launch.Options | lib/soundcloud-uploader.ts:60-69 | headless unless `HEADED` is "true"; the proxy and 30-second timeout; the switch list is unchanged without a proxy and lacks "--no-proxy-server" with one |
| Launch.OptionsFilterArgs | lib/soundcloud-uploader.ts:64-69 | the options' switch list is exactly the source's filter of the switch list |
| Launch.LaunchBrowser | lib/soundcloud-uploader.ts:71-82 | the Chrome channel is tried first exactly when asked for; the first launch returns a browser exactly when the launch it tried did not raise; a single plain launch follows only after Chrome fails; the escaping error is absent exactly when Chrome or the plain launch succeeded, and otherwise it is the plain launch's error |
| Navigation.Navigate | lib/soundcloud-uploader.ts:98-111 | the attempts from a given one on: every attempt before the last one made failed, a success stops the loop, and only attempt 3's failure is rethrown |
| Navigation.NavigateToUpload | lib/soundcloud-uploader.ts:98-111 | the loop's trace in each of its four cases, with the 2000 ms and 4000 ms back-offs after failed attempts 1 and 2 |
| Navigation.NavigationBounds | lib/soundcloud-uploader.ts:98-111 | at most 3 attempts and at most 6000 ms of back-off, exactly 6000 ms when every attempt fails |
| Selectors.TitleStep | lib/soundcloud-uploader.ts:130-144 | the title step fills at most one field |
| Selectors.TitleStepFillsFirstVisible | lib/soundcloud-uploader.ts:130-144 | a field is filled exactly when the title is truthy and some title selector is visible; the filled field is the first visible one in list order; the text is the title |
| Selectors.DuplicateTitleSelectorIsInert | lib/soundcloud-uploader.ts:131-136 | the repeated fourth title selector is never used, and dropping it changes nothing |
| Selectors.SaveStep | lib/soundcloud-uploader.ts:146-167 | the save step clicks at most one button |
| Selectors.SaveStepClicksFirstVisible | lib/soundcloud-uploader.ts:155-167 | when a listed save button is visible, the first visible one is clicked; the button found by accessible name is tried only when none is |
| TrackLink.TrackUrl | lib/soundcloud-uploader.ts:185 | the track URL always starts with "http"; an absolute `href` is kept verbatim; anything else, including a missing `href`, follows the origin "https://soundcloud.com" |
| TrackLink.TrackUrlIdempotent | lib/soundcloud-uploader.ts:185 | resolving an already resolved URL changes nothing |
| TrackLink.FindTrack | lib/soundcloud-uploader.ts:186 | the leftmost position of "/tracks/" followed by a digit, or none when there is no such position |
| TrackLink.TrackId | lib/soundcloud-uploader.ts:186 | a track id exists exactly when "/tracks/" followed by a digit occurs; it is the digit run after the leftmost such occurrence |
| TrackLink.Finish | lib/soundcloud-uploader.ts:183-202 | a found link always gives success with its resolved URL and id; without a link it is success exactly when the final URL contains "/tracks/" or "/you/", and otherwise the "link not found" failure |
| TrackLink.TrackIdImpliesFallbackSuccess | lib/soundcloud-uploader.ts:190-197 | a final URL carrying a track id is always accepted by the fallback |
| ErrorClassifier.Classify | lib/soundcloud-uploader.ts:207-216 | each category holds exactly when its signature matches and no earlier one does; the timeout category splits on the navigation context |
| ErrorClassifier.Describe | lib/soundcloud-uploader.ts:204-218 | an unclassified error keeps its raw message |
| ErrorClassifier.MessagesDistinct | lib/soundcloud-uploader.ts:207-216 | the four classified categories have four different user messages |
| ErrorClassifier.ClassifyFollowsRuleOrder | lib/soundcloud-uploader.ts:207-216 | the chain of tests agrees, for every message, with taking the first matching rule of an ordered rule table |
| Uploader.FormSteps | lib/soundcloud-uploader.ts:125-202 | the form part sets the file and waits 5000 ms, then makes exactly the title step's actions and then the save step's, and ends waiting for the track link; it never opens or closes a browser, and its result is the one the track link or final URL determines |
| Uploader.GuardedBlock | lib/soundcloud-uploader.ts:84-202 | the block opens the session and then makes exactly the navigation loop's gotos and waits; a session failure, the third failed navigation or a missing file input is raised; a sign-in redirect gives the session-expired failure; the trace stops after the loop on a navigation failure or sign-in page, after the file-input wait when that fails, and otherwise continues with the form part's actions |
| Uploader.AttemptTraceHasOnlyGotosAndWaits | lib/soundcloud-uploader.ts:98-111 | the navigation loop issues only gotos and waits |
| Uploader.Settle | lib/soundcloud-uploader.ts:203-218 | an error raised in the block becomes a failure carrying its classified message; a returned result passes through |
| Uploader.StartBrowser | lib/soundcloud-uploader.ts:58-82 | one or two launch calls, all with the options computed from the environment; the first has the "chrome" channel exactly when `USE_SYSTEM_CHROME` is "true" outside Docker; a second, plain call is made exactly when that Chrome launch raised; each call returns a browser exactly when its kind of launch does not raise; the error is absent after a Chrome success and otherwise is the plain launch's |
| Uploader.LaunchAndRun | lib/soundcloud-uploader.ts:71-221 | a failed launch lets its error escape with only the launch calls in the trace; after a launch the run returns the settled result of the guarded block, and its trace is the launch calls, the block's calls and one final close |
| Uploader.Upload | lib/soundcloud-uploader.ts:47-222 | a missing file gives "File not found" before anything happens; a cookie error escapes before any launch; with cookies loaded, a launched run returns the settled block result with the browser closed exactly once, last, and a failed launch throws its error; it returns a response exactly when the file is missing or a browser was launched |
| Uploader.SessionExpiredSkipsForm | lib/soundcloud-uploader.ts:113-120 | a run landing on a sign-in page reports the expired session, never touches the form and still closes the browser once |
| Uploader.PublishedRunReturnsTrack | lib/soundcloud-uploader.ts:183-188 | a run that reaches the form and finds the track link returns success with the resolved link and its track id, and closes the browser once |
| Uploader.RaisedErrorsAreClassified | lib/soundcloud-uploader.ts:203-218 | an error raised after the launch never escapes: the run returns a failure carrying the classified message |
| Uploader.ClosedOnceAtEnd | lib/soundcloud-uploader.ts:219-221 | launch calls, then block calls, then the `finally` close: the trace contains exactly one close, and it is the last action |
| Uploader.NavCounts | lib/soundcloud-uploader.ts:98-111 | the navigation loop makes at most three `page.goto` calls and no fill or click |
| Uploader.AttemptTraceGotos | lib/soundcloud-uploader.ts:98-111 | each attempt of the loop makes exactly one `page.goto` |
| Uploader.FormWaits | lib/soundcloud-uploader.ts:125-202 | the only fixed wait of the form part is the 5000 ms after the file is set |
| Uploader.FormCounts | lib/soundcloud-uploader.ts:130-167 | the form part makes no `page.goto`, at most one fill, made only when the title is truthy, and at most one save click |
| Uploader.BlockCountOf | lib/soundcloud-uploader.ts:84-202 | the block's gotos, fills and clicks are those of the navigation loop, plus those of the form part exactly when the run reaches it |
| Uploader.BlockBoundsCounts | lib/soundcloud-uploader.ts:84-202 | the block makes at most three gotos, at most one fill, only for a truthy title, and at most one save click |
| Uploader.BlockWaits | lib/soundcloud-uploader.ts:98-128 | the block waits at most the 6000 ms of navigation back-off plus the 5000 ms after the file is set |
| Uploader.RunCountOf | lib/soundcloud-uploader.ts:47-222 | a run's gotos, fills, clicks and fixed waits are exactly those of the guarded block when a browser was launched, and none otherwise |
| Uploader.RunBounds | lib/soundcloud-uploader.ts:47-222 | whatever the environment and driver answer, a run makes at most three `page.goto` calls, at most one title fill and only for a truthy title, at most one save click, and at most 11000 ms of fixed waits |
| UploadRoute.TooLargeMessageText | app/api/upload/route.ts:35 | the size message computed from the limit reads "File too large (max 500MB)" |
| UploadRoute.Validate | app/api/upload/route.ts:19-38 | the first failing check in the order missing, type, size; each rejection holds exactly when its check fails and the earlier ones pass |
| UploadRoute.SizeBoundary | app/api/upload/route.ts:33 | exactly 524288000 bytes is accepted, one byte more is rejected |
| UploadRoute.Sanitize | app/api/upload/route.ts:43 | the sanitised name is as long as JavaScript's `length` of the input, counted in UTF-16 code units; every resulting character is in `[a-zA-Z0-9.-]` or "_"; a name made only of such characters is unchanged |
| UploadRoute.SanitizeIdempotent | app/api/upload/route.ts:43 | sanitising twice is sanitising once |
| UploadRoute.SanitizeConcat | app/api/upload/route.ts:43 | the global replacement works piecewise: sanitising a concatenation is concatenating the sanitised parts |
| UploadRoute.SanitizeOneChar | app/api/upload/route.ts:43 | a character in `[a-zA-Z0-9.-]` is kept; any other character of the Basic Multilingual Plane becomes one "_"; a character beyond it, being two UTF-16 code units, becomes "__" |
| UploadRoute.SanitizeEmojiName | app/api/upload/route.ts:43 | an emoji followed by ".mp3" becomes "__.mp3" |
| UploadRoute.TempFileName | app/api/upload/route.ts:41-44 | the temporary base name contains no "/" and ends with the sanitised upload name |
| UploadRoute.TempFileNameDistinctTimes | app/api/upload/route.ts:41-44 | two temporary names are equal only when the timestamps are equal and the upload names sanitise alike, so requests in different milliseconds never share a temporary file |
| UploadRoute.StampSplit | app/api/upload/route.ts:43 | a digit stamp followed by "-" splits off a name in only one way |
| UploadRoute.UploadTitle | app/api/upload/route.ts:53 | an absent or empty title is not passed on; any other is passed unchanged |
| UploadRoute.Uploaded | app/api/upload/route.ts:16-19 | only an uploaded file reaches the checks; an absent field and a text value give no file |
| UploadRoute.Post | app/api/upload/route.ts:13-67 | a form that cannot be read gives 500 with its message and no action; a rejection gives 400 with its message, writes nothing and never calls the uploader; a non-empty text value in the `file` field makes the type check raise "Cannot read properties of undefined (reading 'toLowerCase')", answered with 500; a failed write gives 500 with its message after the write alone, without removing the file or calling the uploader; the uploader is called exactly when the form was read, the checks passed on an uploaded file and the file was written; the temporary file is then removed whether the uploader returns or throws; the result is 200 with the uploader's response verbatim or 500 with the raised message |
| UploadRoute.EmptyTextFieldIsMissingFile | app/api/upload/route.ts:19-24 | an empty text value in the `file` field is falsy and is answered as "No file provided" with 400 |
| UploadRoute.UnlinkErrorIgnored | app/api/upload/route.ts:57 | a failure to remove the temporary file changes nothing in the response |
| StatusRoute.ProbeEntries | app/api/status/route.ts:17 | the `some` scan finds a session exactly when an element named "oauth_token" comes before any `null`; it fails exactly when a `null` comes before any such element |
| StatusRoute.ProbeIsFirstDecisive | app/api/status/route.ts:17 | the scan's outcome is decided by the first element that is `null` or named "oauth_token" |
| StatusRoute.Probe | app/api/status/route.ts:16-17 | a parse error propagates and a non-array holds no session |
| StatusRoute.Probed | app/api/status/route.ts:13-29 | a set variable is probed on its decoded value and reported as "env"; otherwise an unreadable file gives its read error and a readable one the probe of its parsed text, both as "file"; nothing is probed when neither is present |
| StatusRoute.Status | app/api/status/route.ts:5-36 | `app` is always "ok"; the source is "env" or "file" exactly when that source was probed without error; an error leaves the source "none" and `cookies` false; `cookies` holds exactly when the variable, if set, or else the readable file holds an element named "oauth_token" before any `null` |
| StatusRoute.StatusIgnoresFileUnderEnv | app/api/status/route.ts:13-20 | with the variable set, the cookies file has no influence on the report |
| StatusRoute.EnvSessionMeansEnvLoad | app/api/status/route.ts:14-19 | a session reported from the variable means loading takes the cookies from the variable too, whatever the file holds |
| StatusRoute.EmptyEnvArrayDivergence | app/api/status/route.ts:17-19 | a variable decoding to an empty array gives source "env" with no session, while loading falls through to the file |

Notes on what the code does:

- A cookies file whose reading or parsing fails lets that raw error escape from `loadCookies`
  (`Cookies.CookieError.Raised`). Only an empty array or a non-array is reported as "empty or
  invalid".
- There is one wait for `input[type="file"]`. A failure there or in `setInputFiles` goes through
  the same error classification as every other error raised after the launch.
- When streaming the upload to the temporary file fails, the route answers 500 and does not
  remove the file. Only the uploader call is inside the `try … finally` that unlinks
  (`UploadRoute.Post`, the `WriteTemp`-only trace).

## Left out

- Browser driver internals (contexts, pages, locators, screenshots) are not modelled. Their
  answers are fields of `Uploader.World`.
- Wall-clock timeouts (120 s navigation, 15 s file input, 300 s track link, 30 s launch)
  appear only as the errors they raise. The waited durations 2000·attempt ms and 5000 ms are
  trace values.
- Logging and the `DEBUG_UPLOAD` screenshot are diagnostic side effects and are left out.
- `scripts/encode-cookies.js` and the React components are not part of this model.
- Uploader.Upload: `fs.statSync` inside the launch log line is evaluated even when logging is
  off, and it can raise if the file disappears after the existence check. This is not
  modelled.
- Uploader.Upload: `browser.close` is taken not to raise. An error from `close` would replace
  the result.
- Uploader.FormSteps: only the wait for the file input and `setInputFiles` can raise. Errors
  from `isVisible` (including a strict-mode violation when the button locator by accessible
  name at lib/soundcloud-uploader.ts:166 matches several buttons), `fill`, `click`,
  `getAttribute` and `waitForTimeout` are not modelled, so the form part always completes.
- Selectors.DuplicateTitleSelectorIsInert: visibility is taken as fixed during one walk. The
  code queries each selector afresh, so a title field that appeared between the first and the
  fourth query would be filled through the duplicate entry.
- UploadRoute.Sanitize: a Dafny `char` is a Unicode scalar value, so a name holding a lone
  surrogate code unit is not representable.
- Uploader.Upload: `path.resolve` of the file path is not modelled. The form step receives the
  path as given.
- UploadRoute.Post: a file value in the `title` form field is not modelled. The code passes
  such an object on as the title, and the uploader would then fill the title field with it;
  here a title is always text.
- UploadRoute.Post: `path.join` normalisation of the temporary directory is not modelled. The
  path is the directory, "/" and the base name.
- UploadRoute.Post: a thrown value that is not an `Error` ("Upload failed") is not modelled,
  because every error here carries a message.
- UploadRoute.Post: the uploader's file-existence check is an input of its world, not a
  consequence of the write.
- StatusRoute.Status: `String(e)` for a thrown non-`Error` is not modelled, for the same
  reason.
- Strings.Lower: only ASCII letters are lower-cased. Unicode case mapping is not modelled.
- Cookies.Expiry: the expiration date is a real number. NaN and infinities are not modelled.
- Cookies.ToPlaywrightCookie: elements with ill-typed fields are not modelled field by field.
  An element whose conversion raises (a non-string `domain` on a cookie that is not host-only,
  for example) is a `Cookies.RawEntry.Unconvertible` carrying that error. An element whose
  ill-typed fields are copied without raising (a non-string `domain` on a host-only cookie) is
  not representable. A `sameSite` value outside the four exported ones is not modelled.
- Base64 decoding and `JSON.parse` are inputs (`Cookies.Host.decodeBase64`,
  `Cookies.Host.parseJson`), not implementations.
- Requests are independent. Concurrency between them is not modelled.

=== FILE: automation.dfy ===
/** The vocabulary of one run of lib/soundcloud-uploader.ts: its result type, the launch options
    it hands the browser driver, the environment variables it reads, and the driver actions it
    performs, recorded as a trace. */
module Automation {
  import opened Basics
  import Cookies

  /** `UploadResponse`: the published track, or a user-facing error message. */
  datatype UploadResponse = Success(url: string, trackId: Option<string>) | Failure(error: string)

  /** The options passed to `chromium.launch`. */
  datatype LaunchOptions = LaunchOptions(
    headless: bool,
    args: seq<string>,
    proxy: Option<string>,
    channel: Option<string>,
    timeoutMs: nat)

  /** The environment variables and the container marker file the launch step reads. */
  datatype Env = Env(
    headed: Option<string>,            // HEADED
    useSystemChrome: Option<string>,   // USE_SYSTEM_CHROME
    httpProxy: Option<string>,         // HTTP_PROXY
    httpsProxy: Option<string>,        // HTTPS_PROXY
    dockerEnvExists: bool)             // whether /.dockerenv exists

  /** One driver call, in the order the run makes them. */
  datatype Action =
    | Launch(options: LaunchOptions, launched: bool)   // `launched`: the call returned a browser
    | OpenSession(cookies: seq<Cookies.Cookie>)        // newContext, addCookies, newPage
    | Goto(attempt: nat)
    | Wait(ms: nat)
    | AwaitFileInput
    | SetFiles(path: string)
    | Fill(selector: string, text: string)
    | Click(selector: string)
    | ClickSaveRole                                    // the button found by its accessible name
    | AwaitTrackLink
    | Close

  /** Total time spent in fixed waits along a trace. */
  function WaitedMs(trace: seq<Action>): nat {
    if |trace| == 0 then 0
    else (if trace[0].Wait? then trace[0].ms else 0) + WaitedMs(trace[1..])
  }
}

=== FILE: basics.dfy ===
/** Small shared vocabulary: optional values, results, and JavaScript truthiness. */
module Basics {

  /** An optional value; `None` plays the role of JavaScript's `undefined` or `null`. */
  datatype Option<+T> = None | Some(value: T)

  /** Either a value or the error that was raised instead. */
  datatype Result<+T, +E> = Ok(value: T) | Err(error: E)

  /** JavaScript truthiness of an optional string: it is defined and not empty. */
  predicate Truthy(s: Option<string>) {
    s.Some? && s.value != ""
  }

  /** JavaScript truthiness of an optional boolean. */
  predicate IsTrue(b: Option<bool>) {
    b == Some(true)
  }
}

=== FILE: cookies.dfy ===
/** The credential adapter of lib/cookies.ts: conversion of one browser-exported cookie into the
    automation driver's cookie record, and the choice between the environment-provided blob and
    the `cookies.json` file. */
module Cookies {
  import opened Basics
  import opened Strings

  /** The `sameSite` values a browser cookie export uses. */
  datatype ChromeSameSite = NoRestriction | ChromeLax | ChromeStrict | ChromeUnspecified

  /** The `sameSite` policies the automation driver accepts. */
  datatype SameSitePolicy = SameSiteNone | SameSiteLax | SameSiteStrict

  /** One exported cookie; optional properties of the export are `Option`s. */
  datatype ChromeCookie = ChromeCookie(
    domain: string,
    expirationDate: Option<real>,
    hostOnly: Option<bool>,
    httpOnly: Option<bool>,
    name: string,
    path: Option<string>,
    sameSite: Option<ChromeSameSite>,
    secure: Option<bool>,
    session: Option<bool>,
    value: string)

  /** The driver's cookie record. */
  datatype Cookie = Cookie(
    name: string,
    value: string,
    domain: string,
    path: string,
    expires: int,
    httpOnly: bool,
    secure: bool,
    sameSite: SameSitePolicy)

  /** Expiry (seconds since the epoch) given to session cookies and cookies without one. */
  const FarFutureExpiry: int := 9999999999

  /** The domain the driver receives: a host-only cookie keeps its domain, any other gets a
      leading dot unless it already has one. */
  function NormalizeDomain(domain: string, hostOnly: Option<bool>): (r: string)
    ensures IsTrue(hostOnly) ==> r == domain
    ensures !IsTrue(hostOnly) ==> StartsWith(r, ".")
    ensures !IsTrue(hostOnly) ==> (r == domain <==> StartsWith(domain, "."))
    ensures r == domain || r == "." + domain
  {
    if IsTrue(hostOnly) then domain
    else if StartsWith(domain, ".") then domain
    else "." + domain
  }

  /** Normalising a normalised domain changes nothing. */
  lemma NormalizeDomainIdempotent(domain: string, hostOnly: Option<bool>)
    ensures NormalizeDomain(NormalizeDomain(domain, hostOnly), hostOnly) == NormalizeDomain(domain, hostOnly)
  {
  }

  /** The export's `sameSite` as a driver policy; a missing or "unspecified" value means Lax. */
  function MapSameSite(s: Option<ChromeSameSite>): (r: SameSitePolicy)
    ensures s.None? || s == Some(ChromeUnspecified) ==> r == SameSiteLax
  {
    match s
    case Some(NoRestriction) => SameSiteNone
    case Some(ChromeStrict) => SameSiteStrict
    case _ => SameSiteLax
  }

  /** The export value a browser writes for a policy: the inverse direction of `MapSameSite`. */
  function ExportSameSite(p: SameSitePolicy): ChromeSameSite {
    match p
    case SameSiteNone => NoRestriction
    case SameSiteLax => ChromeLax
    case SameSiteStrict => ChromeStrict
  }

  /** `MapSameSite` undoes `ExportSameSite`, and the only export values that collapse onto the
      same policy are "lax", "unspecified" and absence, all meaning Lax. */
  lemma SameSiteRoundTrip(p: SameSitePolicy, s: Option<ChromeSameSite>)
    ensures MapSameSite(Some(ExportSameSite(p))) == p
    ensures MapSameSite(s) == p <==> s == Some(ExportSameSite(p)) || (p == SameSiteLax && s in {None, Some(ChromeUnspecified)})
  {
  }

  /** The driver's expiry: the far-future sentinel for session cookies and for a missing or zero
      expiration date, otherwise the expiration date rounded down to whole seconds. */
  function Expiry(session: Option<bool>, expirationDate: Option<real>): (r: int)
    ensures IsTrue(session) || expirationDate in {None, Some(0.0)} ==> r == FarFutureExpiry
    ensures !IsTrue(session) && expirationDate.Some? && expirationDate.value != 0.0 ==>
              r as real <= expirationDate.value < r as real + 1.0
  {
    if !IsTrue(session) && expirationDate.Some? && expirationDate.value != 0.0
    then expirationDate.value.Floor
    else FarFutureExpiry
  }

  /** `toPlaywrightCookie`: a field-by-field conversion of one exported cookie. */
  function ToPlaywrightCookie(c: ChromeCookie): (r: Cookie)
    ensures r.name == c.name && r.value == c.value
    ensures r.domain == NormalizeDomain(c.domain, c.hostOnly)
    ensures r.path != ""
    ensures c.path.Some? && c.path.value != "" ==> r.path == c.path.value
    ensures !(c.path.Some? && c.path.value != "") ==> r.path == "/"
    ensures r.httpOnly <==> IsTrue(c.httpOnly)
    ensures r.secure <==> IsTrue(c.secure)
    ensures r.sameSite == MapSameSite(c.sameSite)
    ensures r.expires == Expiry(c.session, c.expirationDate)
  {
    Cookie(
      name := c.name,
      value := c.value,
      domain := NormalizeDomain(c.domain, c.hostOnly),
      path := if c.path.Some? && c.path.value != "" then c.path.value else "/",
      expires := Expiry(c.session, c.expirationDate),
      httpOnly := if c.httpOnly.Some? then c.httpOnly.value else false,
      secure := if c.secure.Some? then c.secure.value else false,
      sameSite := MapSameSite(c.sameSite))
  }

  /** How a browser would export a driver cookie: host-only exactly when the domain has no
      leading dot, session-only exactly when the expiry is the far-future sentinel. */
  function ExportCookie(k: Cookie): ChromeCookie {
    ChromeCookie(
      domain := k.domain,
      expirationDate := if k.expires == FarFutureExpiry then None else Some(k.expires as real),
      hostOnly := Some(!StartsWith(k.domain, ".")),
      httpOnly := Some(k.httpOnly),
      name := k.name,
      path := Some(k.path),
      sameSite := Some(ExportSameSite(k.sameSite)),
      secure := Some(k.secure),
      session := Some(k.expires == FarFutureExpiry),
      value := k.value)
  }

  /** Converting the export of a driver cookie gives that cookie back, for every cookie whose
      path is not empty and whose expiry is not zero (the two values the conversion replaces). */
  lemma ExportRoundTrip(k: Cookie)
    requires k.path != "" && k.expires != 0
    ensures ToPlaywrightCookie(ExportCookie(k)) == k
  {
    var c := ExportCookie(k);
    assert NormalizeDomain(c.domain, c.hostOnly) == k.domain;
    if k.expires != FarFutureExpiry {
      assert (k.expires as real).Floor == k.expires;
    }
  }

  /** One element of the parsed JSON array. */
  datatype RawEntry =
    | NullEntry
      // a JSON `null`: reading any property of it raises a TypeError
    | Entry(cookie: ChromeCookie)
      // an object following the export schema
    | Unconvertible(name: Option<string>, typeError: string)
      // any other element (a number, a string, an object without a string `domain` and not
      // host-only): conversion raises `typeError`; `name` is its `name` property when a string

  /** What JSON parsing of a credential source produced. */
  datatype Json = ParseFailure(message: string) | JsonArray(items: seq<RawEntry>) | JsonNonArray

  /** The `cookies.json` file in the working directory. */
  datatype CookieFile = Absent | Unreadable(message: string) | Readable(text: string)

  /** Everything `loadCookies` observes: the `SOUNDCLOUD_COOKIES` variable, the cookies file,
      and the two library calls it makes, base64 decoding and `JSON.parse`. */
  datatype Host = Host(
    envCookies: Option<string>,
    cookiesFile: CookieFile,
    decodeBase64: string -> string,
    parseJson: string -> Json)

  /** The message of the TypeError JavaScript raises when reading property `prop` of `null`. */
  function NullRead(prop: string): string {
    "Cannot read properties of null (reading '" + prop + "')"
  }

  /** The error raised while converting one element, if any. */
  function ConversionError(e: RawEntry): (r: Option<string>)
    ensures r.None? <==> e.Entry?
  {
    match e
    case NullEntry => Some(NullRead("hostOnly"))
    case Entry(_) => None
    case Unconvertible(_, m) => Some(m)
  }

  /** `arr.map(toPlaywrightCookie)`: the converted array, or the error of the first element
      whose conversion raises. */
  function ConvertAll(items: seq<RawEntry>): (r: Result<seq<Cookie>, string>)
    ensures r.Ok? <==> forall i :: 0 <= i < |items| ==> items[i].Entry?
    ensures r.Ok? ==> |r.value| == |items|
    ensures r.Ok? ==> forall i :: 0 <= i < |items| ==> r.value[i] == ToPlaywrightCookie(items[i].cookie)
    ensures r.Err? ==> exists i :: 0 <= i < |items| && ConversionError(items[i]) == Some(r.error)
                         && forall j :: 0 <= j < i ==> items[j].Entry?
  {
    if |items| == 0 then Ok([])
    else match items[0]
      case Entry(c) =>
        (match ConvertAll(items[1..])
         case Ok(rest) => Ok([ToPlaywrightCookie(c)] + rest)
         case Err(m) => Err(m))
      case _ => Err(ConversionError(items[0]).value)
  }

  /** The errors `loadCookies` raises. */
  datatype CookieError =
    | EnvInvalid
    | NotConfigured
    | FileEmptyOrInvalid
    | Raised(message: string)   // an error from reading, parsing or converting the file, uncaught

  function ErrorMessage(e: CookieError): string {
    match e
    case EnvInvalid => "SOUNDCLOUD_COOKIES invalid. Use base64 of cookies JSON."
    case NotConfigured => "Cookies not configured. Set SOUNDCLOUD_COOKIES env or add cookies.json (export from SoundCloud)"
    case FileEmptyOrInvalid => "cookies.json is empty or invalid"
    case Raised(m) => m
  }

  /** The JSON the environment variable decodes to; meaningful only when it is set. */
  function EnvJson(h: Host): Json
    requires Truthy(h.envCookies)
  {
    h.parseJson(h.decodeBase64(h.envCookies.value))
  }

  /** The environment variable is set and decodes to a non-empty array. */
  predicate EnvHasArray(h: Host) {
    Truthy(h.envCookies) && EnvJson(h).JsonArray? && |EnvJson(h).items| > 0
  }

  /** The cookie-file branch of `loadCookies`. */
  function LoadFromFile(h: Host): (r: Result<seq<Cookie>, CookieError>)
    ensures r.Ok? ==> |r.value| > 0
    ensures h.cookiesFile.Absent? <==> r == Err(NotConfigured)
    ensures r == Err(FileEmptyOrInvalid) <==>
              h.cookiesFile.Readable? && var j := h.parseJson(h.cookiesFile.text);
              j.JsonNonArray? || j == JsonArray([])
    // A read or parse error escapes unchanged.
    ensures h.cookiesFile.Unreadable? ==> r == Err(Raised(h.cookiesFile.message))
    ensures h.cookiesFile.Readable? && h.parseJson(h.cookiesFile.text).ParseFailure? ==>
              r == Err(Raised(h.parseJson(h.cookiesFile.text).message))
    // A non-empty array is converted element by element; a conversion error escapes unchanged.
    ensures h.cookiesFile.Readable? && h.parseJson(h.cookiesFile.text).JsonArray?
            && |h.parseJson(h.cookiesFile.text).items| > 0 ==>
              var converted := ConvertAll(h.parseJson(h.cookiesFile.text).items);
              r == (if converted.Ok? then Ok(converted.value) else Err(Raised(converted.error)))
  {
    match h.cookiesFile
    case Absent => Err(NotConfigured)
    case Unreadable(m) => Err(Raised(m))
    case Readable(text) =>
      match h.parseJson(text)
      case ParseFailure(m) => Err(Raised(m))
      case JsonNonArray => Err(FileEmptyOrInvalid)
      case JsonArray(items) =>
        if |items| == 0 then Err(FileEmptyOrInvalid)
        else match ConvertAll(items)
          case Ok(cs) => Ok(cs)
          case Err(m) => Err(Raised(m))
  }

  /** `loadCookies`: the environment variable takes precedence; a value that fails to parse or
      to convert is an error, but one that parses to an empty array or to something other than
      an array falls through to the file. A successful load never yields an empty list. */
  function LoadCookies(h: Host): (r: Result<seq<Cookie>, CookieError>)
    ensures r.Ok? ==> |r.value| > 0
    ensures r == Err(EnvInvalid) <==>
              Truthy(h.envCookies) && (EnvJson(h).ParseFailure? || (EnvHasArray(h) && ConvertAll(EnvJson(h).items).Err?))
    // A usable variable gives its converted cookies; without the variable the file decides.
    ensures EnvHasArray(h) && ConvertAll(EnvJson(h).items).Ok? ==> r == Ok(ConvertAll(EnvJson(h).items).value)
    ensures !Truthy(h.envCookies) ==> r == LoadFromFile(h)
  {
    if Truthy(h.envCookies) then
      match EnvJson(h)
      case ParseFailure(_) => Err(EnvInvalid)
      case JsonNonArray => LoadFromFile(h)
      case JsonArray(items) =>
        if |items| == 0 then LoadFromFile(h)
        else match ConvertAll(items)
          case Ok(cs) => Ok(cs)
          case Err(_) => Err(EnvInvalid)
    else LoadFromFile(h)
  }

  /** A usable environment value decides the result alone: the file is never consulted. */
  lemma EnvIgnoresFile(h: Host, f: CookieFile)
    requires EnvHasArray(h)
    ensures LoadCookies(h.(cookiesFile := f)) == LoadCookies(h)
    ensures ConvertAll(EnvJson(h).items).Ok? ==> LoadCookies(h) == Ok(ConvertAll(EnvJson(h).items).value)
  {
  }

  /** An environment value decoding to an empty array or to a non-array behaves as if unset. */
  lemma EnvFallsThrough(h: Host)
    requires Truthy(h.envCookies) && !EnvJson(h).ParseFailure? && !EnvHasArray(h)
    ensures LoadCookies(h) == LoadCookies(h.(envCookies := None))
  {
  }
}

=== FILE: error_classifier.dfy ===
/** The `catch` block of lib/soundcloud-uploader.ts: a raised error's message is matched against
    substring signatures, first match wins, and replaced by a user-facing message. */
module ErrorClassifier {
  import opened Basics
  import opened Strings
  import opened FirstMatch

  datatype Category = Network | ProxyConfig | NavigationTimeout | TrackTimeout | Unclassified

  const NetworkMessage: string := "Нет доступа к SoundCloud. Проверь интернет, VPN, firewall."
  const ProxyMessage: string := "Ошибка сети. Отключи системный прокси или задай HTTP_PROXY."
  const NavigationTimeoutMessage: string :=
    "Не удалось открыть soundcloud.com. Локально: USE_SYSTEM_CHROME=true или деплой на Railway."
  const TrackTimeoutMessage: string := "Таймаут ожидания трека. DEBUG_UPLOAD=true для логов."

  /** The message contains at least one of `needles`. */
  predicate ContainsAny(msg: string, needles: seq<string>) {
    exists i :: 0 <= i < |needles| && Contains(msg, needles[i])
  }

  predicate NetworkSignature(msg: string) {
    Contains(msg, "ERR_CONNECTION_REFUSED") || Contains(msg, "net::ERR")
  }

  predicate ProxySignature(msg: string) {
    Contains(msg, "kCFError") || Contains(msg, "310")
  }

  predicate TimeoutSignature(msg: string) {
    Contains(msg, "timeout") || Contains(msg, "Timeout")
  }

  predicate NavigationSignature(msg: string) {
    Contains(msg, "page.goto") || Contains(msg, "navigating")
  }

  /** The classification, as the chain of `if`/`else if` tests in the source. */
  function Classify(msg: string): (r: Category)
    ensures r == Network <==> NetworkSignature(msg)
    ensures r == ProxyConfig <==> !NetworkSignature(msg) && ProxySignature(msg)
    ensures r == NavigationTimeout <==>
              !NetworkSignature(msg) && !ProxySignature(msg) && TimeoutSignature(msg) && NavigationSignature(msg)
    ensures r == TrackTimeout <==>
              !NetworkSignature(msg) && !ProxySignature(msg) && TimeoutSignature(msg) && !NavigationSignature(msg)
  {
    if NetworkSignature(msg) then Network
    else if ProxySignature(msg) then ProxyConfig
    else if TimeoutSignature(msg) then (if NavigationSignature(msg) then NavigationTimeout else TrackTimeout)
    else Unclassified
  }

  /** The user-facing message: a fixed text per category, the raw message when unclassified. */
  function Describe(c: Category, raw: string): (r: string)
    ensures c == Unclassified ==> r == raw
  {
    match c
    case Network => NetworkMessage
    case ProxyConfig => ProxyMessage
    case NavigationTimeout => NavigationTimeoutMessage
    case TrackTimeout => TrackTimeoutMessage
    case Unclassified => raw
  }

  /** The message the caller sees for a raised error. */
  function ErrorMessage(msg: string): string {
    Describe(Classify(msg), msg)
  }

  /** The four classified categories have four different messages. */
  lemma MessagesDistinct(c: Category, d: Category, raw: string)
    requires c != Unclassified && d != Unclassified && c != d
    ensures Describe(c, raw) != Describe(d, raw)
  {
  }

  /** A signature rule: it matches when the message contains one of `signatures` and, when
      `context` is not empty, also one of `context`. */
  datatype Rule = Rule(signatures: seq<string>, context: seq<string>, category: Category)

  predicate Matches(rule: Rule, msg: string) {
    ContainsAny(msg, rule.signatures) && (rule.context == [] || ContainsAny(msg, rule.context))
  }

  /** The classification as an ordered rule table, independent of the chain of tests. */
  const Rules: seq<Rule> := [
    Rule(["ERR_CONNECTION_REFUSED", "net::ERR"], [], Network),
    Rule(["kCFError", "310"], [], ProxyConfig),
    Rule(["timeout", "Timeout"], ["page.goto", "navigating"], NavigationTimeout),
    Rule(["timeout", "Timeout"], [], TrackTimeout)
  ]

  function ClassifyByRules(msg: string): Category {
    match First(Rules, (rule: Rule) => Matches(rule, msg))
    case Some(rule) => rule.category
    case None => Unclassified
  }

  lemma ContainsAnyPair(msg: string, a: string, b: string)
    ensures ContainsAny(msg, [a, b]) <==> Contains(msg, a) || Contains(msg, b)
  {
    if Contains(msg, a) { assert [a, b][0] == a; }
    if Contains(msg, b) { assert [a, b][1] == b; }
  }

  /** The chain of tests is the first matching rule of the table, in table order. */
  lemma ClassifyFollowsRuleOrder(msg: string)
    ensures Classify(msg) == ClassifyByRules(msg)
  {
    var p := (rule: Rule) => Matches(rule, msg);
    ContainsAnyPair(msg, "ERR_CONNECTION_REFUSED", "net::ERR");
    ContainsAnyPair(msg, "kCFError", "310");
    ContainsAnyPair(msg, "timeout", "Timeout");
    ContainsAnyPair(msg, "page.goto", "navigating");
    assert p(Rules[0]) <==> NetworkSignature(msg);
    assert p(Rules[1]) <==> ProxySignature(msg);
    assert p(Rules[2]) <==> TimeoutSignature(msg) && NavigationSignature(msg);
    assert p(Rules[3]) <==> TimeoutSignature(msg);
    if NetworkSignature(msg) {
      FirstIndexCharacterised(Rules, p, 0);
    } else if ProxySignature(msg) {
      FirstIndexCharacterised(Rules, p, 1);
    } else if TimeoutSignature(msg) && NavigationSignature(msg) {
      FirstIndexCharacterised(Rules, p, 2);
    } else if TimeoutSignature(msg) {
      FirstIndexCharacterised(Rules, p, 3);
    } else {
      assert forall j :: 0 <= j < |Rules| ==> !p(Rules[j]);
    }
  }
}

=== FILE: first_match.dfy ===
/** "First element in list order that satisfies a test wins": the tie-break the uploader
    applies to its selector lists and its error classifier applies to message signatures. */
module FirstMatch {
  import opened Basics

  /** The index of the first element of `xs` that satisfies `p`, if any. */
  function FirstIndex<T>(xs: seq<T>, p: T -> bool): (r: Option<nat>)
    ensures r.Some? ==> r.value < |xs| && p(xs[r.value])
    ensures r.Some? ==> forall j :: 0 <= j < r.value ==> !p(xs[j])
    ensures r.None? <==> forall j :: 0 <= j < |xs| ==> !p(xs[j])
  {
    if |xs| == 0 then None
    else if p(xs[0]) then Some(0)
    else match FirstIndex(xs[1..], p)
      case None => None
      case Some(k) => Some(k + 1)
  }

  /** The first element of `xs` that satisfies `p`, if any. */
  function First<T>(xs: seq<T>, p: T -> bool): (r: Option<T>)
    ensures r.Some? ==> r.value in xs && p(r.value)
    ensures r.None? <==> forall j :: 0 <= j < |xs| ==> !p(xs[j])
  {
    match FirstIndex(xs, p)
    case None => None
    case Some(i) => Some(xs[i])
  }

  /** An element equal to one seen earlier in the list can never be the one chosen. */
  lemma LaterDuplicateNeverChosen<T>(xs: seq<T>, p: T -> bool, i: nat, k: nat)
    requires i < k < |xs| && xs[i] == xs[k]
    ensures FirstIndex(xs, p) != Some(k)
  {
  }

  /** The postcondition of `FirstIndex` pins its result down: any index meeting it is the answer. */
  lemma FirstIndexCharacterised<T>(xs: seq<T>, p: T -> bool, m: nat)
    requires m < |xs| && p(xs[m])
    requires forall j :: 0 <= j < m ==> !p(xs[j])
    ensures FirstIndex(xs, p) == Some(m)
  {
  }

  /** Dropping an element that repeats an earlier one leaves the chosen element unchanged. */
  lemma {:induction false} DropLaterDuplicate<T>(xs: seq<T>, p: T -> bool, i: nat, k: nat)
    requires i < k < |xs| && xs[i] == xs[k]
    ensures First(xs[..k] + xs[k + 1..], p) == First(xs, p)
  {
    var ys := xs[..k] + xs[k + 1..];
    assert forall j :: 0 <= j < k ==> ys[j] == xs[j];
    assert forall j :: k <= j < |ys| ==> ys[j] == xs[j + 1];
    match FirstIndex(xs, p)
    case None =>
      forall j | 0 <= j < |ys| ensures !p(ys[j]) {
        if j >= k { assert ys[j] == xs[j + 1]; }
      }
    case Some(m) =>
      LaterDuplicateNeverChosen(xs, p, i, k);
      if m < k {
        FirstIndexCharacterised(ys, p, m);
      } else {
        forall j | 0 <= j < m - 1 ensures !p(ys[j]) {
          if j >= k { assert ys[j] == xs[j + 1]; }
        }
        FirstIndexCharacterised(ys, p, m - 1);
      }
  }
}

=== FILE: launch.dfy ===
/** Launch-option computation and the Chrome-then-Chromium launch of lib/soundcloud-uploader.ts. */
module Launch {
  import opened Basics
  import opened Automation

  const NoProxyServer: string := "--no-proxy-server"

  /** The Chromium command-line switches, in the order they are passed. */
  const ChromiumArgs: seq<string> := [
    "--no-sandbox",
    "--disable-setuid-sandbox",
    "--disable-dev-shm-usage",
    "--disable-gpu",
    "--disable-software-rasterizer",
    "--disable-extensions",
    "--no-first-run",
    "--no-zygote",
    "--disable-background-networking",
    "--disable-default-apps",
    "--disable-sync",
    "--disable-translate",
    "--metrics-recording-only",
    "--mute-audio",
    "--no-default-browser-check",
    "--proxy-bypass-list=*",
    NoProxyServer
  ]

  const LaunchTimeoutMs: nat := 30000

  /** `xs.filter(a => a !== x)`. */
  function Without<T(==)>(xs: seq<T>, x: T): (r: seq<T>)
    ensures x !in r
    ensures |r| <= |xs|
    ensures multiset(r) == multiset(xs)[x := 0]
  {
    if |xs| == 0 then []
    else
      assert xs == [xs[0]] + xs[1..];
      if xs[0] == x then Without(xs[1..], x) else [xs[0]] + Without(xs[1..], x)
  }

  /** Filtering a list that does not hold the element changes nothing. */
  lemma {:induction false} WithoutAbsent<T>(xs: seq<T>, x: T)
    requires x !in xs
    ensures Without(xs, x) == xs
  {
    if |xs| > 0 {
      assert xs == [xs[0]] + xs[1..];
      WithoutAbsent(xs[1..], x);
    }
  }

  /** Filtering works piecewise, so the kept elements keep their relative order. */
  lemma {:induction false} WithoutConcat<T>(a: seq<T>, b: seq<T>, x: T)
    ensures Without(a + b, x) == Without(a, x) + Without(b, x)
  {
    if |a| == 0 {
      assert a + b == b;
    } else {
      assert (a + b)[1..] == a[1..] + b;
      WithoutConcat(a[1..], b, x);
    }
  }

  /** With a proxy the switch list loses exactly its last entry, "--no-proxy-server". */
  lemma ProxyArgs()
    ensures Without(ChromiumArgs, NoProxyServer) == ChromiumArgs[..|ChromiumArgs| - 1]
  {
    var kept := ChromiumArgs[..|ChromiumArgs| - 1];
    assert ChromiumArgs == kept + [NoProxyServer];
    assert NoProxyServer !in kept;
    WithoutConcat(kept, [NoProxyServer], NoProxyServer);
    WithoutAbsent(kept, NoProxyServer);
  }

  /** `HTTP_PROXY || HTTPS_PROXY`, and whether the result is truthy. */
  function ProxyServer(env: Env): (r: Option<string>)
    ensures r.Some? ==> r.value != ""
    ensures Truthy(env.httpProxy) ==> r == env.httpProxy
    ensures r.None? <==> !Truthy(env.httpProxy) && !Truthy(env.httpsProxy)
    ensures r.Some? ==> r == env.httpProxy || r == env.httpsProxy
  {
    if Truthy(env.httpProxy) then env.httpProxy
    else if Truthy(env.httpsProxy) then env.httpsProxy
    else None
  }

  /** The Chrome channel is tried only when asked for and not inside a container. */
  predicate UseChrome(env: Env) {
    env.useSystemChrome == Some("true") && !env.dockerEnvExists
  }

  /** The options of the plain Chromium launch. */
  function Options(env: Env): (r: LaunchOptions)
    ensures r.headless <==> env.headed != Some("true")
    ensures r.proxy == ProxyServer(env)
    ensures r.channel.None? && r.timeoutMs == LaunchTimeoutMs
    ensures r.proxy.None? ==> r.args == ChromiumArgs
    ensures r.proxy.Some? ==> r.args == ChromiumArgs[..|ChromiumArgs| - 1]
    ensures r.proxy.Some? ==> NoProxyServer !in r.args
  {
    var proxy := ProxyServer(env);
    LaunchOptions(
      headless := env.headed != Some("true"),
      args := if proxy.Some? then ChromiumArgs[..|ChromiumArgs| - 1] else ChromiumArgs,
      proxy := proxy,
      channel := None,
      timeoutMs := LaunchTimeoutMs)
  }

  /** The options' switch list is the source's `filter`: with a proxy, every
      "--no-proxy-server" is dropped and the other switches keep their order. */
  lemma OptionsFilterArgs(env: Env)
    ensures ProxyServer(env).Some? ==> Options(env).args == Without(ChromiumArgs, NoProxyServer)
    ensures ProxyServer(env).None? ==> Options(env).args == ChromiumArgs
  {
    ProxyArgs();
  }

  /** The launch attempts made and the error that escapes, if the last one failed. */
  datatype LaunchResult = LaunchResult(trace: seq<Action>, error: Option<string>)

  /** Launch the browser with the plain options `opts`: with the Chrome channel first when
      `useChrome`, falling back to one plain launch if that throws. `chromeError` and
      `plainError` are what the driver raises for each kind of launch, `None` when it returns a
      browser. */
  function LaunchBrowser(opts: LaunchOptions, useChrome: bool, chromeError: Option<string>, plainError: Option<string>): (r: LaunchResult)
    requires opts.channel.None?
    ensures 1 <= |r.trace| <= 2
    ensures forall i :: 0 <= i < |r.trace| ==> r.trace[i].Launch? && r.trace[i].options.(channel := None) == opts
    ensures r.trace[0].options.channel == Some("chrome") <==> useChrome
    ensures |r.trace| == 2 <==> useChrome && chromeError.Some?
    ensures |r.trace| == 2 ==> r.trace[1].options == opts && !r.trace[0].launched
    ensures r.error.None? <==> r.trace[|r.trace| - 1].launched
    ensures r.error.Some? ==> r.error == plainError
    // Each launch succeeds exactly when the driver raises nothing for its kind of launch, so
    // the run proceeds after a working Chrome, or after the plain launch otherwise.
    ensures r.trace[0].launched <==> (if useChrome then chromeError.None? else plainError.None?)
    ensures r.error == (if useChrome && chromeError.None? then None else plainError)
  {
    var plain := [Launch(opts, plainError.None?)];
    if useChrome then
      var chrome := opts.(channel := Some("chrome"));
      if chromeError.None? then LaunchResult([Launch(chrome, true)], None)
      else LaunchResult([Launch(chrome, false)] + plain, plainError)
    else LaunchResult(plain, plainError)
  }
}

=== FILE: navigation.dfy ===
/** The bounded navigation retry of lib/soundcloud-uploader.ts: up to three `page.goto` attempts
    with a linear back-off, and the sign-in redirect check on the page it lands on. */
module Navigation {
  import opened Basics
  import opened Strings
  import opened Automation

  const MaxAttempts: nat := 3

  /** Back-off after failed attempt `attempt`, in milliseconds. */
  function BackoffMs(attempt: nat): nat {
    2000 * attempt
  }

  /** The gotos and waits made, how many gotos, and the error of the last attempt if every
      attempt failed. */
  datatype NavResult = NavResult(trace: seq<Action>, attempts: nat, error: Option<string>)

  /** `n` gotos from attempt `a` on, each failed one followed by its back-off. */
  function AttemptTrace(a: nat, n: nat): seq<Action>
    requires n >= 1
    decreases n
  {
    if n == 1 then [Goto(a)] else [Goto(a), Wait(BackoffMs(a))] + AttemptTrace(a + 1, n - 1)
  }

  /** Attempts `attempt`..3 of the loop. `nav(k)` is what attempt `k` of `page.goto` raises,
      `None` when it succeeds. */
  function Navigate(nav: nat -> Option<string>, attempt: nat): (r: NavResult)
    requires 1 <= attempt <= MaxAttempts
    decreases MaxAttempts - attempt
    ensures 1 <= r.attempts <= MaxAttempts - attempt + 1
    ensures forall k :: attempt <= k < attempt + r.attempts - 1 ==> nav(k).Some?
    ensures r.error.None? ==> nav(attempt + r.attempts - 1).None?
    ensures r.error.Some? ==> attempt + r.attempts - 1 == MaxAttempts && r.error == nav(MaxAttempts)
    ensures r.trace == AttemptTrace(attempt, r.attempts)
  {
    if nav(attempt).None? then NavResult([Goto(attempt)], 1, None)
    else if attempt == MaxAttempts then NavResult([Goto(attempt)], 1, nav(attempt))
    else
      var rest := Navigate(nav, attempt + 1);
      NavResult([Goto(attempt), Wait(BackoffMs(attempt))] + rest.trace, rest.attempts + 1, rest.error)
  }

  /** The whole loop, from attempt 1: it stops at the first success, waits only after failed
      attempts 1 and 2, and rethrows the third failure. */
  function NavigateToUpload(nav: nat -> Option<string>): (r: NavResult)
    ensures nav(1).None? ==> r.trace == [Goto(1)] && r.error.None?
    ensures nav(1).Some? && nav(2).None? ==>
              r.trace == [Goto(1), Wait(2000), Goto(2)] && r.error.None?
    ensures nav(1).Some? && nav(2).Some? && nav(3).None? ==>
              r.trace == [Goto(1), Wait(2000), Goto(2), Wait(4000), Goto(3)] && r.error.None?
    ensures nav(1).Some? && nav(2).Some? && nav(3).Some? ==>
              r.trace == [Goto(1), Wait(2000), Goto(2), Wait(4000), Goto(3)] && r.error == nav(3)
  {
    var r := Navigate(nav, 1);
    assert AttemptTrace(3, 1) == [Goto(3)];
    assert AttemptTrace(2, 2) == [Goto(2), Wait(4000), Goto(3)];
    assert AttemptTrace(2, 1) == [Goto(2)];
    r
  }

  lemma {:induction false} WaitedMsConcat(a: seq<Action>, b: seq<Action>)
    ensures WaitedMs(a + b) == WaitedMs(a) + WaitedMs(b)
  {
    if |a| == 0 {
      assert a + b == b;
    } else {
      assert (a + b)[0] == a[0];
      assert (a + b)[1..] == a[1..] + b;
      WaitedMsConcat(a[1..], b);
    }
  }

  /** At most three attempts and at most six seconds of back-off; exactly six when all fail. */
  lemma NavigationBounds(nav: nat -> Option<string>)
    ensures NavigateToUpload(nav).attempts <= MaxAttempts
    ensures WaitedMs(NavigateToUpload(nav).trace) <= 6000
    ensures NavigateToUpload(nav).error.Some? ==> WaitedMs(NavigateToUpload(nav).trace) == 6000
  {
    var g1, g2, g3 := [Goto(1)], [Goto(2)], [Goto(3)];
    assert WaitedMs(g1) == 0 && WaitedMs(g2) == 0 && WaitedMs(g3) == 0;
    assert WaitedMs([Wait(2000)]) == 2000 && WaitedMs([Wait(4000)]) == 4000;
    WaitedMsConcat(g1 + [Wait(2000)], g2);
    WaitedMsConcat(g1, [Wait(2000)]);
    WaitedMsConcat(g1 + [Wait(2000)] + g2 + [Wait(4000)], g3);
    WaitedMsConcat(g1 + [Wait(2000)] + g2, [Wait(4000)]);
    assert [Goto(1), Wait(2000), Goto(2)] == g1 + [Wait(2000)] + g2;
    assert [Goto(1), Wait(2000), Goto(2), Wait(4000), Goto(3)] == g1 + [Wait(2000)] + g2 + [Wait(4000)] + g3;
  }

  /** The page landed on is a sign-in page: the stored session has expired. */
  predicate SignInRedirect(url: string) {
    Contains(url, "/signin") || Contains(url, "/login")
  }
}

=== FILE: selectors.dfy ===
/** The title and save steps of lib/soundcloud-uploader.ts: each walks a fixed selector list
    and acts on the first selector whose first match is visible. */
module Selectors {
  import opened Basics
  import opened FirstMatch
  import opened Automation

  const TitleSelectors: seq<string> := [
    "input[placeholder*=\"Title\"]",
    "input[name*=\"title\"]",
    "input[aria-label*=\"title\"]",
    "input[placeholder*=\"Title\"]"
  ]

  const SaveSelectors: seq<string> := [
    "button:has-text(\"Save\")",
    "button:has-text(\"Publish\")",
    "button:has-text(\"Upload\")",
    "button:has-text(\"Сохранить\")",
    "[data-testid=\"save-button\"]",
    "button[type=\"submit\"]"
  ]

  /** `s` is the selector a list walk stops at: visible, and no selector before it is. */
  predicate FirstVisibleIs(sels: seq<string>, visible: string -> bool, s: string) {
    exists i :: 0 <= i < |sels| && sels[i] == s && visible(s) && forall j :: 0 <= j < i ==> !visible(sels[j])
  }

  /** Some selector of the list is visible. */
  predicate AnyVisible(sels: seq<string>, visible: string -> bool) {
    exists i :: 0 <= i < |sels| && visible(sels[i])
  }

  /** The title step: with a truthy title, fill the first visible title field, if any.
      `visible(s)` is whether the first element matching `s` is visible. */
  function TitleStep(title: Option<string>, visible: string -> bool): (r: seq<Action>)
    ensures |r| <= 1 && forall a :: a in r ==> a.Fill?
  {
    if Truthy(title) then
      match First(TitleSelectors, visible)
      case Some(s) => [Fill(s, title.value)]
      case None => []
    else []
  }

  /** The title step fills at most one field, only for a truthy title, and exactly the first
      visible one in list order. */
  lemma TitleStepFillsFirstVisible(title: Option<string>, visible: string -> bool)
    ensures |TitleStep(title, visible)| == 1 <==> Truthy(title) && AnyVisible(TitleSelectors, visible)
    ensures |TitleStep(title, visible)| == 1 ==>
              TitleStep(title, visible)[0].text == title.value
              && FirstVisibleIs(TitleSelectors, visible, TitleStep(title, visible)[0].selector)
  {
    var f := FirstIndex(TitleSelectors, visible);
    if f.Some? {
      assert TitleSelectors[f.value] == First(TitleSelectors, visible).value;
    }
  }

  /** The repeated fourth title selector is never the one used, and leaving it out changes
      nothing. */
  lemma DuplicateTitleSelectorIsInert(visible: string -> bool)
    ensures FirstIndex(TitleSelectors, visible) != Some(3)
    ensures First(TitleSelectors[..3], visible) == First(TitleSelectors, visible)
  {
    LaterDuplicateNeverChosen(TitleSelectors, visible, 0, 3);
    DropLaterDuplicate(TitleSelectors, visible, 0, 3);
    assert TitleSelectors[..3] + TitleSelectors[4..] == TitleSelectors[..3];
  }

  /** The save step: click the first visible listed save button; only when none is visible,
      click the button found by its accessible name if that one is visible. */
  function SaveStep(visible: string -> bool, roleButtonVisible: bool): (r: seq<Action>)
    ensures |r| <= 1 && forall a :: a in r ==> a.Click? || a.ClickSaveRole?
  {
    match First(SaveSelectors, visible)
    case Some(s) => [Click(s)]
    case None => if roleButtonVisible then [ClickSaveRole] else []
  }

  /** The save step clicks the first visible listed button, and falls back to the button
      found by its accessible name only when no listed one is visible. */
  lemma SaveStepClicksFirstVisible(visible: string -> bool, roleButtonVisible: bool)
    ensures AnyVisible(SaveSelectors, visible) ==>
              |SaveStep(visible, roleButtonVisible)| == 1 && SaveStep(visible, roleButtonVisible)[0].Click?
              && FirstVisibleIs(SaveSelectors, visible, SaveStep(visible, roleButtonVisible)[0].selector)
    ensures !AnyVisible(SaveSelectors, visible) ==>
              SaveStep(visible, roleButtonVisible) == (if roleButtonVisible then [ClickSaveRole] else [])
  {
    var f := FirstIndex(SaveSelectors, visible);
    if f.Some? {
      assert SaveSelectors[f.value] == First(SaveSelectors, visible).value;
    }
  }
}

=== FILE: status_route.dfy ===
/** The `GET` handler of app/api/status/route.ts: a health report saying where the credentials
    would come from and whether they hold a session token. It reads the same environment
    variable and file as `loadCookies`, but probes them with its own, looser test. */
module StatusRoute {
  import opened Basics
  import opened FirstMatch
  import opened Cookies

  const SessionCookieName: string := "oauth_token"

  /** The `cookiesSource` field: "none", "env" or "file". */
  datatype CookieSource = NoSource | EnvSource | FileSource

  function SourceName(s: CookieSource): string {
    match s
    case NoSource => "none"
    case EnvSource => "env"
    case FileSource => "file"
  }

  /** The report. `cookiesError` is absent from the JSON body when it is `None`. */
  datatype StatusReport = StatusReport(
    app: string,
    cookies: bool,
    cookiesSource: CookieSource,
    cookiesError: Option<string>)

  /** An element whose `name` property is the session cookie's name. */
  predicate NamedSession(e: RawEntry) {
    (e.Entry? && e.cookie.name == SessionCookieName) || (e.Unconvertible? && e.name == Some(SessionCookieName))
  }

  /** An element at which the scan for the session cookie stops: a match, or a `null`, whose
      `name` cannot be read. */
  predicate Decisive(e: RawEntry) {
    e.NullEntry? || NamedSession(e)
  }

  /** An element named "oauth_token" comes before any `null`. */
  predicate SessionBeforeNull(items: seq<RawEntry>) {
    exists i :: 0 <= i < |items| && NamedSession(items[i]) && forall j :: 0 <= j < i ==> !items[j].NullEntry?
  }

  /** A `null` comes before any element named "oauth_token". */
  predicate NullBeforeSession(items: seq<RawEntry>) {
    exists i :: 0 <= i < |items| && items[i].NullEntry? && forall j :: 0 <= j < i ==> !NamedSession(items[j])
  }

  /** Past a first element that is neither a match nor `null`, each condition is decided by
      the rest of the array. */
  lemma SkipUndecisiveSession(items: seq<RawEntry>)
    requires |items| > 0 && !Decisive(items[0])
    ensures SessionBeforeNull(items) <==> SessionBeforeNull(items[1..])
  {
    var rest := items[1..];
    if SessionBeforeNull(rest) {
      var i :| 0 <= i < |rest| && NamedSession(rest[i]) && forall j :: 0 <= j < i ==> !rest[j].NullEntry?;
      assert NamedSession(items[i + 1]) && forall j :: 0 <= j < i + 1 ==> !items[j].NullEntry?;
    }
    if SessionBeforeNull(items) {
      var i :| 0 <= i < |items| && NamedSession(items[i]) && forall j :: 0 <= j < i ==> !items[j].NullEntry?;
      assert i > 0;
      assert NamedSession(rest[i - 1]) && forall j :: 0 <= j < i - 1 ==> !rest[j].NullEntry?;
    }
  }

  lemma SkipUndecisiveNull(items: seq<RawEntry>)
    requires |items| > 0 && !Decisive(items[0])
    ensures NullBeforeSession(items) <==> NullBeforeSession(items[1..])
  {
    var rest := items[1..];
    if NullBeforeSession(rest) {
      var i :| 0 <= i < |rest| && rest[i].NullEntry? && forall j :: 0 <= j < i ==> !NamedSession(rest[j]);
      assert items[i + 1].NullEntry? && forall j :: 0 <= j < i + 1 ==> !NamedSession(items[j]);
    }
    if NullBeforeSession(items) {
      var i :| 0 <= i < |items| && items[i].NullEntry? && forall j :: 0 <= j < i ==> !NamedSession(items[j]);
      assert i > 0;
      assert rest[i - 1].NullEntry? && forall j :: 0 <= j < i - 1 ==> !NamedSession(rest[j]);
    }
  }

  /** `arr.some(c => c.name === "oauth_token")`: `true` at the first match, an error at a `null`
      met before any match, `false` when the scan runs off the end. */
  function ProbeEntries(items: seq<RawEntry>): (r: Result<bool, string>)
    ensures r == Ok(true) <==> SessionBeforeNull(items)
    ensures r.Err? <==> NullBeforeSession(items)
    ensures r.Err? ==> r.error == NullRead("name")
  {
    if |items| == 0 then Ok(false)
    else if items[0].NullEntry? then
      assert NullBeforeSession(items) by { assert items[0].NullEntry?; }
      Err(NullRead("name"))
    else if NamedSession(items[0]) then
      assert SessionBeforeNull(items) by { assert NamedSession(items[0]); }
      Ok(true)
    else
      SkipUndecisiveSession(items);
      SkipUndecisiveNull(items);
      ProbeEntries(items[1..])
  }

  /** The scan is decided by the first decisive element alone. */
  lemma ProbeIsFirstDecisive(items: seq<RawEntry>)
    ensures ProbeEntries(items) ==
              match First(items, Decisive)
              case None => Ok(false)
              case Some(e) => if e.NullEntry? then Err(NullRead("name")) else Ok(true)
  {
    var f := FirstIndex(items, Decisive);
    if f.Some? {
      var i := f.value;
      assert items[i] == First(items, Decisive).value;
      if items[i].NullEntry? {
        assert !NamedSession(items[i]);
        assert forall j :: 0 <= j < i ==> !NamedSession(items[j]) by {
          forall j | 0 <= j < i ensures !NamedSession(items[j]) { assert !Decisive(items[j]); }
        }
        assert ProbeEntries(items).Ok? ==> ProbeEntries(items) == Ok(true);
        assert ProbeEntries(items) != Ok(true) by {
          forall k | 0 <= k < |items| && NamedSession(items[k])
            ensures i < k
          {
            assert k != i;
          }
        }
      } else {
        assert NamedSession(items[i]);
        assert forall j :: 0 <= j < i ==> !items[j].NullEntry? by {
          forall j | 0 <= j < i ensures !items[j].NullEntry? { assert !Decisive(items[j]); }
        }
      }
    } else {
      assert forall k :: 0 <= k < |items| ==> !items[k].NullEntry? && !NamedSession(items[k]) by {
        forall k | 0 <= k < |items| ensures !items[k].NullEntry? && !NamedSession(items[k]) {
          assert !Decisive(items[k]);
        }
      }
    }
  }

  /** The probe of a parsed value: a parse error propagates, a non-array has no session. */
  function Probe(j: Json): (r: Result<bool, string>)
    ensures j.ParseFailure? ==> r == Err(j.message)
    ensures j.JsonNonArray? ==> r == Ok(false)
    ensures j.JsonArray? ==> r == ProbeEntries(j.items)
  {
    match j
    case ParseFailure(m) => Err(m)
    case JsonNonArray => Ok(false)
    case JsonArray(items) => ProbeEntries(items)
  }

  /** The value the handler probes, and the source it then reports: the environment variable
      when set, else the cookies file when present, else nothing. */
  function Probed(h: Host): (r: Option<(CookieSource, Result<bool, string>)>)
    ensures r.None? <==> !Truthy(h.envCookies) && h.cookiesFile.Absent?
    ensures r.Some? ==> (r.value.0 == EnvSource <==> Truthy(h.envCookies))
    ensures Truthy(h.envCookies) ==> r == Some((EnvSource, Probe(EnvJson(h))))
    ensures !Truthy(h.envCookies) && h.cookiesFile.Unreadable? ==> r == Some((FileSource, Err(h.cookiesFile.message)))
    ensures !Truthy(h.envCookies) && h.cookiesFile.Readable? ==>
              r == Some((FileSource, Probe(h.parseJson(h.cookiesFile.text))))
  {
    if Truthy(h.envCookies) then Some((EnvSource, Probe(EnvJson(h))))
    else match h.cookiesFile
      case Absent => None
      case Unreadable(m) => Some((FileSource, Err(m)))
      case Readable(text) => Some((FileSource, Probe(h.parseJson(text))))
  }

  /** The handler. The source is recorded only after the probe succeeds, so an error leaves
      it at "none". */
  function Status(h: Host): (r: StatusReport)
    ensures r.app == "ok"
    ensures r.cookiesError.Some? ==> !r.cookies && r.cookiesSource == NoSource
    ensures r.cookiesSource == EnvSource <==> Truthy(h.envCookies) && Probe(EnvJson(h)).Ok?
    ensures r.cookiesSource == FileSource <==>
              !Truthy(h.envCookies) && h.cookiesFile.Readable? && Probe(h.parseJson(h.cookiesFile.text)).Ok?
    ensures r.cookies <==> Probed(h).Some? && Probed(h).value.1 == Ok(true)
    // A session is reported exactly when the variable, if set, or else the readable file holds
    // an element named "oauth_token" before any `null`.
    ensures r.cookies <==>
              if Truthy(h.envCookies) then Probe(EnvJson(h)) == Ok(true)
              else h.cookiesFile.Readable? && Probe(h.parseJson(h.cookiesFile.text)) == Ok(true)
    ensures r.cookiesError.Some? <==> Probed(h).Some? && Probed(h).value.1.Err?
    ensures r.cookiesError.Some? ==> r.cookiesError == Some(Probed(h).value.1.error)
  {
    match Probed(h)
    case None => StatusReport("ok", false, NoSource, None)
    case Some((source, Ok(found))) => StatusReport("ok", found, source, None)
    case Some((_, Err(m))) => StatusReport("ok", false, NoSource, Some(m))
  }

  /** As in `loadCookies`, a set environment variable hides the file completely. */
  lemma StatusIgnoresFileUnderEnv(h: Host, f: CookieFile)
    requires Truthy(h.envCookies)
    ensures Status(h.(cookiesFile := f)) == Status(h)
  {
  }

  /** A session found in the environment variable is one `loadCookies` also takes from there:
      the variable holds a non-empty array, so the file plays no part in loading. */
  lemma EnvSessionMeansEnvLoad(h: Host, f: CookieFile)
    requires Status(h).cookiesSource == EnvSource && Status(h).cookies
    ensures EnvHasArray(h)
    ensures LoadCookies(h.(cookiesFile := f)) == LoadCookies(h)
  {
    EnvIgnoresFile(h, f);
  }

  /** Unlike `loadCookies`, the report does not fall through: an environment value decoding to
      an empty array names "env" as the source and reports no session, while loading goes on to
      the file. */
  lemma EmptyEnvArrayDivergence(h: Host)
    requires Truthy(h.envCookies) && EnvJson(h) == JsonArray([])
    ensures Status(h) == StatusReport("ok", false, EnvSource, None)
    ensures LoadCookies(h) == LoadFromFile(h)
  {
  }
}

=== FILE: strings.dfy ===
/** The string operations the source calls on JavaScript strings (`startsWith`, `endsWith`,
    `includes`, `toLowerCase`, template interpolation of a number), over `seq<char>`. */
module Strings {

  predicate StartsWith(s: string, prefix: string) {
    |prefix| <= |s| && s[..|prefix|] == prefix
  }

  predicate EndsWith(s: string, suffix: string) {
    |suffix| <= |s| && s[|s| - |suffix|..] == suffix
  }

  /** `sub` occurs in `s` starting at index `i`. */
  predicate OccursAt(s: string, sub: string, i: int) {
    0 <= i && i + |sub| <= |s| && s[i..i + |sub|] == sub
  }

  /** JavaScript's `s.includes(sub)`. */
  predicate Contains(s: string, sub: string) {
    exists i :: 0 <= i <= |s| && OccursAt(s, sub, i)
  }

  predicate IsDigit(c: char) {
    '0' <= c <= '9'
  }

  predicate AllDigits(s: string) {
    forall i :: 0 <= i < |s| ==> IsDigit(s[i])
  }

  /** ASCII upper-case letters are lowered; every other character is kept. */
  function LowerChar(c: char): char {
    if 'A' <= c <= 'Z' then (c as int + 32) as char else c
  }

  /** `s.toLowerCase()` restricted to ASCII letters. */
  function Lower(s: string): (r: string)
    ensures |r| == |s|
    ensures forall i :: 0 <= i < |s| ==> r[i] == LowerChar(s[i])
  {
    seq(|s|, i requires 0 <= i < |s| => LowerChar(s[i]))
  }

  /** The longest run of decimal digits at the start of `s`: what a greedy `(\d+)` captures there. */
  function DigitRun(s: string): (r: string)
    ensures StartsWith(s, r)
    ensures AllDigits(r)
    ensures |r| == |s| || !IsDigit(s[|r|])
  {
    if |s| > 0 && IsDigit(s[0]) then [s[0]] + DigitRun(s[1..]) else []
  }

  function DigitChar(d: nat): (c: char)
    requires d < 10
    ensures IsDigit(c)
  {
    ('0' as int + d) as char
  }

  function DigitValue(c: char): nat
    requires IsDigit(c)
  {
    c as int - '0' as int
  }

  /** The decimal rendering JavaScript gives a non-negative integer in a template string. */
  function NatToString(n: nat): (r: string)
    ensures |r| > 0 && AllDigits(r)
    ensures |r| > 1 ==> r[0] != '0'
  {
    if n < 10 then [DigitChar(n)] else NatToString(n / 10) + [DigitChar(n % 10)]
  }

  /** The value of a string of decimal digits. */
  function DecimalValue(s: string): nat
    requires AllDigits(s)
  {
    if |s| == 0 then 0 else DecimalValue(s[..|s| - 1]) * 10 + DigitValue(s[|s| - 1])
  }

  /** Rendering a number and reading it back gives the number. */
  lemma {:induction false} DecimalRoundTrip(n: nat)
    ensures DecimalValue(NatToString(n)) == n
  {
    if n >= 10 {
      var s := NatToString(n);
      assert s[..|s| - 1] == NatToString(n / 10);
      DecimalRoundTrip(n / 10);
    }
  }
}

=== FILE: track_link.dfy ===
/** How lib/soundcloud-uploader.ts turns the published-track link, or the page's final URL when
    no link appeared, into the upload result. */
module TrackLink {
  import opened Basics
  import opened Strings
  import opened Automation

  const Origin: string := "https://soundcloud.com"
  const TracksSegment: string := "/tracks/"
  const LinkNotFoundMessage: string := "Загрузка завершена, но ссылка на трек не найдена"

  /** The link's `href` as an absolute URL: one starting with "http" is kept, anything else,
      including a missing `href`, is appended to the site origin. */
  function TrackUrl(href: Option<string>): (r: string)
    ensures StartsWith(r, "http")
    ensures href.Some? && StartsWith(href.value, "http") ==> r == href.value
    ensures !(href.Some? && StartsWith(href.value, "http")) ==>
              StartsWith(r, Origin) && r[|Origin|..] == (if href.Some? then href.value else "")
  {
    if href.Some? && StartsWith(href.value, "http") then href.value
    else Origin + (if href.Some? then href.value else "")
  }

  /** An absolute URL is left alone, so resolving twice is resolving once. */
  lemma TrackUrlIdempotent(href: Option<string>)
    ensures TrackUrl(Some(TrackUrl(href))) == TrackUrl(href)
  {
  }

  /** "/tracks/" followed by a digit starts at index `p` of `s`. */
  predicate TrackAt(s: string, p: int) {
    OccursAt(s, TracksSegment, p) && p + |TracksSegment| < |s| && IsDigit(s[p + |TracksSegment|])
  }

  /** The leftmost position at or after `from` where `TrackAt` holds. */
  function FindTrack(s: string, from: nat): (r: Option<nat>)
    requires from <= |s|
    decreases |s| - from
    ensures r.Some? ==> from <= r.value < |s| && TrackAt(s, r.value)
    ensures r.Some? ==> forall q :: from <= q < r.value ==> !TrackAt(s, q)
    ensures r.None? <==> forall q :: from <= q < |s| ==> !TrackAt(s, q)
  {
    if from == |s| then None
    else if TrackAt(s, from) then Some(from)
    else FindTrack(s, from + 1)
  }

  /** `url.match(/\/tracks\/(\d+)/)?.[1]`: the digits after the leftmost "/tracks/" that is
      followed by a digit, taken greedily. */
  function TrackId(url: string): (r: Option<string>)
    ensures r.None? <==> forall q :: 0 <= q < |url| ==> !TrackAt(url, q)
    ensures r.Some? ==> |r.value| > 0 && AllDigits(r.value)
    ensures r.Some? ==> exists p :: 0 <= p < |url| && TrackAt(url, p) && (forall q :: 0 <= q < p ==> !TrackAt(url, q))
                         && r.value == DigitRun(url[p + |TracksSegment|..])
  {
    match FindTrack(url, 0)
    case None => None
    case Some(p) =>
      var d := DigitRun(url[p + |TracksSegment|..]);
      assert d[0] == url[p + |TracksSegment|];
      Some(d)
  }

  /** The result once the wait for a track link is over. `trackLink` is `None` when the wait
      timed out, otherwise the link's `href` attribute; `finalUrl` is the page URL then. */
  function Finish(trackLink: Option<Option<string>>, finalUrl: string): (r: UploadResponse)
    ensures trackLink.Some? ==> r == Success(TrackUrl(trackLink.value), TrackId(TrackUrl(trackLink.value)))
    ensures trackLink.None? ==> (r.Success? <==> Contains(finalUrl, TracksSegment) || Contains(finalUrl, "/you/"))
    ensures trackLink.None? && r.Success? ==> r.url == finalUrl && r.trackId == TrackId(finalUrl)
    ensures r.Failure? ==> r.error == LinkNotFoundMessage
  {
    match trackLink
    case Some(href) =>
      var url := TrackUrl(href);
      Success(url, TrackId(url))
    case None =>
      if Contains(finalUrl, TracksSegment) || Contains(finalUrl, "/you/") then Success(finalUrl, TrackId(finalUrl))
      else Failure(LinkNotFoundMessage)
  }

  /** A URL with a numeric track id has a "/tracks/" segment, so the fallback accepts it. */
  lemma TrackIdImpliesFallbackSuccess(finalUrl: string)
    requires TrackId(finalUrl).Some?
    ensures Finish(None, finalUrl).Success?
  {
    var p :| 0 <= p < |finalUrl| && TrackAt(finalUrl, p);
    assert 0 <= p <= |finalUrl| && OccursAt(finalUrl, TracksSegment, p);
  }
}

=== FILE: upload_route.dfy ===
/** The `POST` handler of app/api/upload/route.ts: ordered validation of the uploaded file, the
    temporary file it is written to, the call to the uploader, and the removal of the temporary
    file afterwards. */
module UploadRoute {
  import opened Basics
  import opened Strings
  import opened Automation
  import Uploader

  const MaxFileSize: nat := 500 * 1024 * 1024
  const AllowedMime: seq<string> := ["audio/mpeg", "audio/mp3"]

  /** An uploaded file: its name, MIME type and size in bytes. */
  datatype FilePart = FilePart(name: string, mimeType: string, size: nat)

  /** The value of the `file` form field: an uploaded file, or a plain text value. */
  datatype FormValue = FileValue(part: FilePart) | TextValue(text: string)

  /** The request as the handler sees it. `formError` is what reading the form raises. */
  datatype Request = Request(formError: Option<string>, file: Option<FormValue>, title: Option<string>)

  /** What the handler observes besides the request: the temporary directory, the clock,
      what writing the temporary file and removing it raise, and the uploader's world. */
  datatype Server = Server(
    tmpDir: string,
    now: nat,
    writeError: Option<string>,
    unlinkError: Option<string>,
    uploader: Uploader.World)

  datatype HttpResponse = HttpResponse(status: nat, body: UploadResponse)

  /** The file-system and uploader calls the handler makes, in order. */
  datatype RouteAction =
    | WriteTemp(path: string)
    | CallUploader(options: Uploader.UploadOptions)
    | Unlink(path: string)

  datatype RouteRun = RouteRun(response: HttpResponse, actions: seq<RouteAction>)

  datatype Rejection = NoFile | NotMp3 | TooLarge

  function TooLargeMessage(): string {
    "File too large (max " + NatToString(MaxFileSize / 1024 / 1024) + "MB)"
  }

  lemma TooLargeMessageText()
    ensures TooLargeMessage() == "File too large (max 500MB)"
  {
    assert MaxFileSize / 1024 / 1024 == 500;
    assert NatToString(5) == "5";
    assert NatToString(50) == "5" + "0";
    assert NatToString(500) == "50" + "0";
  }

  function RejectionMessage(r: Rejection): string {
    match r
    case NoFile => "No file provided"
    case NotMp3 => "Only MP3 files are allowed"
    case TooLarge => TooLargeMessage()
  }

  /** The MIME type is an MP3 type, or the lower-cased name ends in ".mp3". */
  predicate AcceptedType(f: FilePart) {
    f.mimeType in AllowedMime || EndsWith(Lower(f.name), ".mp3")
  }

  /** The first failing check, in the order missing file, type, size. */
  function Validate(file: Option<FilePart>): (r: Option<Rejection>)
    ensures r == Some(NoFile) <==> file.None?
    ensures r == Some(NotMp3) <==> file.Some? && !AcceptedType(file.value)
    ensures r == Some(TooLarge) <==> file.Some? && AcceptedType(file.value) && file.value.size > MaxFileSize
    ensures r.None? <==> file.Some? && AcceptedType(file.value) && file.value.size <= MaxFileSize
  {
    if file.None? then Some(NoFile)
    else if !AcceptedType(file.value) then Some(NotMp3)
    else if file.value.size > MaxFileSize then Some(TooLarge)
    else None
  }

  /** A file of exactly 500 MiB passes the size check; one byte more does not. */
  lemma SizeBoundary(name: string, mime: string)
    requires AcceptedType(FilePart(name, mime, MaxFileSize))
    ensures Validate(Some(FilePart(name, mime, MaxFileSize))).None?
    ensures Validate(Some(FilePart(name, mime, MaxFileSize + 1))) == Some(TooLarge)
  {
  }

  /** The characters `[a-zA-Z0-9.-]` that survive in a temporary file name. */
  predicate SafeChar(c: char) {
    'a' <= c <= 'z' || 'A' <= c <= 'Z' || '0' <= c <= '9' || c == '.' || c == '-'
  }

  /** A character outside the Basic Multilingual Plane: two UTF-16 code units in JavaScript. */
  predicate Astral(c: char) {
    c as int >= 0x10000
  }

  /** JavaScript's `s.length`: the number of UTF-16 code units. */
  function Utf16Length(s: string): nat {
    if |s| == 0 then 0 else (if Astral(s[0]) then 2 else 1) + Utf16Length(s[1..])
  }

  /** What the replacement makes of one character. The pattern has no `u` flag, so it matches
      UTF-16 code units: a character outside the Basic Multilingual Plane is two unmatched
      units and becomes two underscores. */
  function SanitizeChar(c: char): string {
    if SafeChar(c) then [c] else if Astral(c) then "__" else "_"
  }

  /** `name.replace(/[^a-zA-Z0-9.-]/g, "_")`. */
  function Sanitize(s: string): (r: string)
    ensures |r| == Utf16Length(s)
    ensures forall i :: 0 <= i < |r| ==> SafeChar(r[i]) || r[i] == '_'
    ensures (forall i :: 0 <= i < |s| ==> SafeChar(s[i]) || s[i] == '_') ==> r == s
  {
    if |s| == 0 then []
    else
      var rest := Sanitize(s[1..]);
      assert forall i :: 1 <= i < |s| ==> s[1..][i - 1] == s[i];
      SanitizeChar(s[0]) + rest
  }

  /** The replacement works character by character. */
  lemma {:induction false} SanitizeConcat(a: string, b: string)
    ensures Sanitize(a + b) == Sanitize(a) + Sanitize(b)
  {
    if |a| == 0 {
      assert a + b == b;
    } else {
      assert (a + b)[0] == a[0];
      assert (a + b)[1..] == a[1..] + b;
      SanitizeConcat(a[1..], b);
    }
  }

  /** On one character the replacement keeps `[a-zA-Z0-9.-]`, replaces any other character of
      the Basic Multilingual Plane by one "_", and any character beyond it by two. */
  lemma SanitizeOneChar(c: char)
    ensures SafeChar(c) ==> Sanitize([c]) == [c]
    ensures !SafeChar(c) && !Astral(c) ==> Sanitize([c]) == "_"
    ensures Astral(c) ==> Sanitize([c]) == "__"
  {
    assert [c][1..] == [];
  }

  /** An emoji in the name gives one underscore per UTF-16 code unit. */
  lemma SanitizeEmojiName()
    ensures Sanitize(['\U{1F3B5}'] + ".mp3") == "__.mp3"
  {
    SanitizeConcat(['\U{1F3B5}'], ".mp3");
    SanitizeOneChar('\U{1F3B5}');
  }

  /** Sanitising a sanitised name changes nothing. */
  lemma SanitizeIdempotent(s: string)
    ensures Sanitize(Sanitize(s)) == Sanitize(s)
  {
  }

  /** The base name of the temporary file. */
  function TempFileName(now: nat, name: string): (r: string)
    ensures '/' !in r
    ensures EndsWith(r, Sanitize(name))
  {
    var stamp := NatToString(now);
    var safe := Sanitize(name);
    var r := "soundcloud-upload-" + stamp + "-" + safe;
    assert forall i :: 0 <= i < |safe| ==> safe[i] != '/';
    assert r[|r| - |safe|..] == safe;
    r
  }

  /** Where a shorter stamp has its "-", a longer all-digit stamp still has a digit. */
  lemma DashAfterDigits(d: string, s: string, e: string, t: string)
    requires AllDigits(e) && |d| < |e|
    ensures d + "-" + s != e + "-" + t
  {
    assert (d + "-" + s)[|d|] == '-';
    assert (e + "-" + t)[|d|] == e[|d|];
  }

  /** A run of digits followed by "-" can be split off only one way. */
  lemma StampSplit(d1: string, s1: string, d2: string, s2: string)
    requires AllDigits(d1) && AllDigits(d2)
    requires d1 + "-" + s1 == d2 + "-" + s2
    ensures d1 == d2 && s1 == s2
  {
    var x := d1 + "-" + s1;
    if |d1| < |d2| {
      DashAfterDigits(d1, s1, d2, s2);
      assert false;
    } else if |d2| < |d1| {
      DashAfterDigits(d2, s2, d1, s1);
      assert false;
    } else {
      assert d1 == x[..|d1|] == d2;
      assert s1 == x[|d1| + 1..] == s2;
    }
  }

  /** The temporary name is the fixed prefix followed by the stamp, "-" and the sanitised name. */
  lemma TempFileNameParts(now: nat, name: string)
    ensures TempFileName(now, name) == "soundcloud-upload-" + (NatToString(now) + "-" + Sanitize(name))
  {
  }

  lemma DropCommonPrefix(p: string, x: string, y: string)
    requires p + x == p + y
    ensures x == y
  {
    assert x == (p + x)[|p|..];
    assert y == (p + y)[|p|..];
  }

  /** Two requests get the same temporary name only at the same millisecond and with names that
      sanitise alike: the timestamp keeps same-named uploads apart. */
  lemma TempFileNameDistinctTimes(n1: nat, n2: nat, a: string, b: string)
    requires TempFileName(n1, a) == TempFileName(n2, b)
    ensures n1 == n2 && Sanitize(a) == Sanitize(b)
  {
    var d1, d2 := NatToString(n1), NatToString(n2);
    var s1, s2 := Sanitize(a), Sanitize(b);
    TempFileNameParts(n1, a);
    TempFileNameParts(n2, b);
    DropCommonPrefix("soundcloud-upload-", d1 + "-" + s1, d2 + "-" + s2);
    StampSplit(d1, s1, d2, s2);
    DecimalRoundTrip(n1);
    DecimalRoundTrip(n2);
  }

  /** The temporary path: the base name directly inside the temporary directory. */
  function TempPath(tmpDir: string, now: nat, name: string): string {
    tmpDir + "/" + TempFileName(now, name)
  }

  /** `title || undefined`: an absent or empty title is not passed on. */
  function UploadTitle(title: Option<string>): (r: Option<string>)
    ensures r.None? <==> !Truthy(title)
    ensures r.Some? ==> r == title
  {
    if Truthy(title) then title else None
  }

  /** The message of the TypeError JavaScript raises when reading property `prop` of `undefined`. */
  function UndefinedRead(prop: string): string {
    "Cannot read properties of undefined (reading '" + prop + "')"
  }

  /** A non-empty text value in the `file` field: it passes the presence check, has no MIME
      type, and has no `name` whose `toLowerCase` the type check could call. */
  predicate TextUpload(v: Option<FormValue>) {
    v.Some? && v.value.TextValue? && v.value.text != ""
  }

  /** The uploaded file the checks see; an absent field and an empty text value both fail the
      presence check. */
  function Uploaded(v: Option<FormValue>): (r: Option<FilePart>)
    ensures r.Some? <==> v.Some? && v.value.FileValue?
    ensures r.Some? ==> r.value == v.value.part
  {
    match v
    case Some(FileValue(f)) => Some(f)
    case _ => None
  }

  /** The uploader was called in this run of the handler. */
  predicate UploaderCalled(actions: seq<RouteAction>) {
    exists a :: a in actions && a.CallUploader?
  }

  /** The handler. */
  function Post(req: Request, srv: Server): (r: RouteRun)
    // A rejected request is answered with 400 and the first failing check's message, and
    // nothing is written and the uploader is not called.
    ensures req.formError.None? && !TextUpload(req.file) && Validate(Uploaded(req.file)).Some? ==>
              r == RouteRun(HttpResponse(400, Failure(RejectionMessage(Validate(Uploaded(req.file)).value))), [])
    // A form that cannot be read is answered with 500 and the error's message; nothing is done.
    ensures req.formError.Some? ==> r == RouteRun(HttpResponse(500, Failure(req.formError.value)), [])
    // A failure to write the temporary file is answered with 500 and its message; the file is
    // not removed and the uploader is not called.
    ensures req.formError.None? && !TextUpload(req.file) && Validate(Uploaded(req.file)).None? && srv.writeError.Some? ==>
              r == RouteRun(HttpResponse(500, Failure(srv.writeError.value)),
                            [WriteTemp(TempPath(srv.tmpDir, srv.now, Uploaded(req.file).value.name))])
    // A non-empty text value in the `file` field makes the type check raise a TypeError.
    ensures req.formError.None? && TextUpload(req.file) ==>
              r == RouteRun(HttpResponse(500, Failure(UndefinedRead("toLowerCase"))), [])
    // The uploader is called exactly when the form was read, every check passed on an uploaded
    // file and the temporary file was written.
    ensures UploaderCalled(r.actions) <==>
              req.formError.None? && Validate(Uploaded(req.file)).None? && srv.writeError.None?
    // Once the uploader is called, the temporary file is removed afterwards, whatever the
    // uploader does, and its result is the response body.
    ensures UploaderCalled(r.actions) ==>
              var path := TempPath(srv.tmpDir, srv.now, Uploaded(req.file).value.name);
              var opts := Uploader.UploadOptions(path, UploadTitle(req.title));
              var run := Uploader.Upload(opts, srv.uploader);
              && r.actions == [WriteTemp(path), CallUploader(opts), Unlink(path)]
              && (run.outcome.Returned? ==> r.response == HttpResponse(200, run.outcome.response))
              && (run.outcome.Threw? ==> r.response == HttpResponse(500, Failure(run.outcome.message)))
    // Any other error is answered with 500 and its message.
    ensures r.response.status == 500 && !UploaderCalled(r.actions) ==>
              r.response.body == Failure(if req.formError.Some? then req.formError.value
                                         else if TextUpload(req.file) then UndefinedRead("toLowerCase")
                                         else srv.writeError.value)
  {
    if req.formError.Some? then RouteRun(HttpResponse(500, Failure(req.formError.value)), [])
    else if TextUpload(req.file) then RouteRun(HttpResponse(500, Failure(UndefinedRead("toLowerCase"))), [])
    else match Validate(Uploaded(req.file))
      case Some(rejection) => RouteRun(HttpResponse(400, Failure(RejectionMessage(rejection))), [])
      case None =>
        var path := TempPath(srv.tmpDir, srv.now, Uploaded(req.file).value.name);
        if srv.writeError.Some? then
          RouteRun(HttpResponse(500, Failure(srv.writeError.value)), [WriteTemp(path)])
        else
          var opts := Uploader.UploadOptions(path, UploadTitle(req.title));
          var run := Uploader.Upload(opts, srv.uploader);
          var actions := [WriteTemp(path), CallUploader(opts), Unlink(path)];
          assert actions[1] in actions;
          match run.outcome
          case Returned(resp) => RouteRun(HttpResponse(200, resp), actions)
          case Threw(m) => RouteRun(HttpResponse(500, Failure(m)), actions)
  }

  /** An empty text value in the `file` field is treated as a missing file. */
  lemma EmptyTextFieldIsMissingFile(title: Option<string>, srv: Server)
    ensures Post(Request(None, Some(TextValue("")), title), srv).response ==
              HttpResponse(400, Failure("No file provided"))
  {
  }

  /** A failure to remove the temporary file is swallowed: it changes nothing. */
  lemma UnlinkErrorIgnored(req: Request, srv: Server, e: Option<string>)
    ensures Post(req, srv.(unlinkError := e)) == Post(req, srv)
  {
  }
}

=== FILE: uploader.dfy ===
/** `uploadToSoundCloud` of lib/soundcloud-uploader.ts as a deterministic function from what the
    run observes (the file system, the environment, the driver's answers) to its outcome and the
    trace of driver calls it makes. */
module Uploader {
  import opened Basics
  import opened Automation
  import Cookies
  import Launch
  import opened Navigation
  import opened Selectors
  import opened TrackLink
  import ErrorClassifier

  const FileNotFoundMessage: string := "File not found"
  const SessionExpiredMessage: string := "Сессия истекла. Экспортируй свежие cookies с soundcloud.com"

  /** Fixed wait after the file is handed to the page, in milliseconds. */
  const AfterFileWaitMs: nat := 5000

  /** The options `uploadToSoundCloud` is called with. */
  datatype UploadOptions = UploadOptions(filePath: string, title: Option<string>)

  /** Everything one run observes. An `Option<string>` error field is the message the driver
      call raises, `None` when it succeeds. */
  datatype World = World(
    fileExists: bool,                        // fs.existsSync(filePath)
    cookieHost: Cookies.Host,                // what loadCookies reads
    env: Env,
    chromeLaunchError: Option<string>,
    plainLaunchError: Option<string>,
    sessionError: Option<string>,            // newContext, addCookies or newPage
    navigation: nat -> Option<string>,       // page.goto, by attempt number
    urlAfterNavigation: string,              // page.url() after the loop
    fileInputError: Option<string>,          // waiting for the file input or setting the file;
                                             // the trace then ends at AwaitFileInput
    visible: string -> bool,                 // whether the first match of a selector is visible
    roleButtonVisible: bool,                 // the save button found by accessible name
    trackLink: Option<Option<string>>,       // None: the wait timed out; else the link's href
    finalUrl: string)                        // page.url() after the wait

  /** How the run ended: a returned response, or an error that escapes the function. */
  datatype Outcome = Returned(response: UploadResponse) | Threw(message: string)

  datatype Run = Run(outcome: Outcome, trace: seq<Action>)

  /** The end of the guarded block: a response, or the message of the error it raised. */
  datatype BlockEnd = Done(response: UploadResponse) | Raised(message: string)

  datatype Block = Block(end: BlockEnd, trace: seq<Action>)

  /** No action in `trace` touches the upload form. */
  predicate NoFormActions(trace: seq<Action>) {
    forall a :: a in trace ==> !a.SetFiles? && !a.Fill? && !a.Click? && !a.ClickSaveRole?
  }

  /** No action in `trace` opens or closes a browser. */
  predicate NoLifecycleActions(trace: seq<Action>) {
    forall a :: a in trace ==> !a.Launch? && !a.Close?
  }

  /** The form part of the block, after the file input was found: set the file, wait, fill the
      title, save, wait for the track link, and build the result. */
  function FormSteps(opts: UploadOptions, w: World): (b: Block)
    ensures b.end.Done?
    ensures NoLifecycleActions(b.trace)
    ensures b.end.response == Finish(w.trackLink, w.finalUrl)
    // The file is set first, followed by the fixed wait; the wait for the track link comes last.
    ensures |b.trace| >= 3 && b.trace[..2] == [SetFiles(opts.filePath), Wait(AfterFileWaitMs)]
    ensures b.trace[|b.trace| - 1] == AwaitTrackLink
    // In between come exactly the title step and the save step, so at most one field is filled
    // and at most one button clicked.
    ensures b.trace == [SetFiles(opts.filePath), Wait(AfterFileWaitMs)]
                       + TitleStep(opts.title, w.visible) + SaveStep(w.visible, w.roleButtonVisible)
                       + [AwaitTrackLink]
  {
    var title := TitleStep(opts.title, w.visible);
    var save := SaveStep(w.visible, w.roleButtonVisible);
    var trace := [SetFiles(opts.filePath), Wait(AfterFileWaitMs)] + title + save + [AwaitTrackLink];
    FormTraceShape(opts.filePath, title, save);
    Block(Done(Finish(w.trackLink, w.finalUrl)), trace)
  }

  /** The form trace's shape, given that the title step only fills and the save step only clicks. */
  lemma FormTraceShape(path: string, title: seq<Action>, save: seq<Action>)
    requires forall a :: a in title ==> a.Fill?
    requires forall a :: a in save ==> a.Click? || a.ClickSaveRole?
    ensures var t := [SetFiles(path), Wait(AfterFileWaitMs)] + title + save + [AwaitTrackLink];
            && NoLifecycleActions(t)
            && |t| >= 3 && t[..2] == [SetFiles(path), Wait(AfterFileWaitMs)] && t[|t| - 1] == AwaitTrackLink
  {
  }

  /** The body of the `try` block that follows a successful launch. */
  function GuardedBlock(opts: UploadOptions, cookies: seq<Cookies.Cookie>, w: World): (b: Block)
    ensures NoLifecycleActions(b.trace)
    ensures |b.trace| > 0 && b.trace[0] == OpenSession(cookies)
    // A failure to open the session, or the third failed navigation, is raised before the
    // form is touched.
    ensures w.sessionError.Some? ==> b == Block(Raised(w.sessionError.value), [OpenSession(cookies)])
    // With a session, the navigation loop's actions follow the session opening.
    ensures w.sessionError.None? ==>
              var nav := NavigateToUpload(w.navigation).trace;
              |b.trace| >= 1 + |nav| && b.trace[..1 + |nav|] == [OpenSession(cookies)] + nav
    // The block stops right after the loop on a navigation failure or a sign-in page, right
    // after the file-input wait when that fails, and otherwise runs the form part.
    ensures w.sessionError.None? && (NavigateToUpload(w.navigation).error.Some? || SignInRedirect(w.urlAfterNavigation)) ==>
              b.trace == [OpenSession(cookies)] + NavigateToUpload(w.navigation).trace
    ensures w.sessionError.None? && NavigateToUpload(w.navigation).error.None? && !SignInRedirect(w.urlAfterNavigation) ==>
              b.trace == [OpenSession(cookies)] + NavigateToUpload(w.navigation).trace + [AwaitFileInput]
                         + (if w.fileInputError.Some? then [] else FormSteps(opts, w).trace)
    ensures w.sessionError.None? && NavigateToUpload(w.navigation).error.Some? ==>
              b.end == Raised(NavigateToUpload(w.navigation).error.value) && NoFormActions(b.trace)
    // Landing on a sign-in page ends the run with the session-expired failure.
    ensures w.sessionError.None? && NavigateToUpload(w.navigation).error.None? && SignInRedirect(w.urlAfterNavigation)
            ==> b.end == Done(Failure(SessionExpiredMessage)) && NoFormActions(b.trace)
    // Otherwise a missing file input is raised, and with one the form decides the result.
    ensures w.sessionError.None? && NavigateToUpload(w.navigation).error.None? && !SignInRedirect(w.urlAfterNavigation)
            ==> b.end == (if w.fileInputError.Some? then Raised(w.fileInputError.value)
                          else Done(Finish(w.trackLink, w.finalUrl)))
  {
    var open := [OpenSession(cookies)];
    if w.sessionError.Some? then Block(Raised(w.sessionError.value), open)
    else
      var nav := NavigateToUpload(w.navigation);
      var navigated := open + nav.trace;
      assert NoFormActions(nav.trace) && NoLifecycleActions(nav.trace) by {
        assert nav.trace == AttemptTrace(1, nav.attempts);
        AttemptTraceHasOnlyGotosAndWaits(1, nav.attempts);
      }
      if nav.error.Some? then Block(Raised(nav.error.value), navigated)
      else if SignInRedirect(w.urlAfterNavigation) then Block(Done(Failure(SessionExpiredMessage)), navigated)
      else
        var located := navigated + [AwaitFileInput];
        if w.fileInputError.Some? then Block(Raised(w.fileInputError.value), located)
        else
          var form := FormSteps(opts, w);
          Block(form.end, located + form.trace)
  }

  lemma {:induction false} AttemptTraceHasOnlyGotosAndWaits(a: nat, n: nat)
    requires n >= 1
    decreases n
    ensures forall x :: x in AttemptTrace(a, n) ==> x.Goto? || x.Wait?
  {
    if n > 1 {
      AttemptTraceHasOnlyGotosAndWaits(a + 1, n - 1);
    }
  }

  /** The `catch` block: a raised error becomes a failure with the classified message. */
  function Settle(e: BlockEnd): (r: UploadResponse)
    ensures e.Done? ==> r == e.response
    ensures e.Raised? ==> r == Failure(ErrorClassifier.ErrorMessage(e.message))
  {
    match e
    case Done(resp) => resp
    case Raised(m) => Failure(ErrorClassifier.ErrorMessage(m))
  }

  /** Number of `Close` actions in a trace. */
  function Closes(trace: seq<Action>): nat {
    if |trace| == 0 then 0 else (if trace[0].Close? then 1 else 0) + Closes(trace[1..])
  }

  lemma {:induction false} ClosesConcat(a: seq<Action>, b: seq<Action>)
    ensures Closes(a + b) == Closes(a) + Closes(b)
  {
    if |a| == 0 {
      assert a + b == b;
    } else {
      assert (a + b)[0] == a[0];
      assert (a + b)[1..] == a[1..] + b;
      ClosesConcat(a[1..], b);
    }
  }

  lemma {:induction false} NoClosesWithoutClose(t: seq<Action>)
    requires forall a :: a in t ==> !a.Close?
    ensures Closes(t) == 0
  {
    if |t| > 0 {
      assert t[0] in t;
      NoClosesWithoutClose(t[1..]);
    }
  }

  /** A browser was returned by some launch call of the trace. */
  predicate Launched(trace: seq<Action>) {
    exists a :: a in trace && a.Launch? && a.launched
  }

  /** The launch step with this run's options: the trace holds only launch calls, and the
      launch succeeded exactly when one of them returned a browser. */
  function StartBrowser(w: World): (l: Launch.LaunchResult)
    ensures forall a :: a in l.trace ==> a.Launch?
    ensures l.error.None? <==> Launched(l.trace)
    ensures l.error.Some? ==> l.error == w.plainLaunchError
    // Every launch uses the options the environment determines, the first one with the Chrome
    // channel exactly when the environment asks for Chrome outside a container.
    ensures forall a :: a in l.trace ==> a.Launch? && a.options.(channel := None) == Launch.Options(w.env)
    ensures |l.trace| > 0 && (l.trace[0].options.channel == Some("chrome") <==> Launch.UseChrome(w.env))
    // A browser is obtained from a working Chrome, or else from the plain launch.
    ensures l.error == (if Launch.UseChrome(w.env) && w.chromeLaunchError.None? then None else w.plainLaunchError)
    // Only a failed Chrome launch is followed by a second call, and that one is the plain launch.
    ensures 1 <= |l.trace| <= 2
    ensures |l.trace| == 2 <==> Launch.UseChrome(w.env) && w.chromeLaunchError.Some?
    ensures |l.trace| == 2 ==> l.trace[1].options == Launch.Options(w.env) && !l.trace[0].launched
    ensures l.trace[0].launched <==>
              (if Launch.UseChrome(w.env) then w.chromeLaunchError.None? else w.plainLaunchError.None?)
  {
    var l := Launch.LaunchBrowser(Launch.Options(w.env), Launch.UseChrome(w.env),
                                  w.chromeLaunchError, w.plainLaunchError);
    assert forall i :: 0 <= i < |l.trace| - 1 ==> !l.trace[i].launched;
    assert l.trace[|l.trace| - 1] in l.trace;
    l
  }

  /** Everything after the cookies were loaded: launch, then the guarded block, then `close`
      in the `finally` clause, which only a launched browser reaches. */
  function LaunchAndRun(opts: UploadOptions, cookies: seq<Cookies.Cookie>, w: World): (r: Run)
    ensures Closes(r.trace) == (if Launched(r.trace) then 1 else 0)
    ensures Launched(r.trace) ==> r.trace == r.trace[..|r.trace| - 1] + [Close]
    ensures r.outcome.Threw? ==> !Launched(r.trace) && w.plainLaunchError == Some(r.outcome.message)
    ensures r.outcome.Returned? <==> Launched(r.trace)
    // A failed launch escapes with nothing else done; after a successful one the guarded block
    // runs, its end is settled into the response, and the browser is closed.
    ensures StartBrowser(w).error.Some? ==> r == Run(Threw(StartBrowser(w).error.value), StartBrowser(w).trace)
    ensures StartBrowser(w).error.None? ==>
              var block := GuardedBlock(opts, cookies, w);
              r == Run(Returned(Settle(block.end)), StartBrowser(w).trace + block.trace + [Close])
  {
    var launch := StartBrowser(w);
    NoClosesWithoutClose(launch.trace);
    if launch.error.Some? then Run(Threw(launch.error.value), launch.trace)
    else
      var block := GuardedBlock(opts, cookies, w);
      ClosedOnceAtEnd(launch.trace, block.trace);
      Run(Returned(Settle(block.end)), launch.trace + block.trace + [Close])
  }

  /** Appending `Close` to a launch that returned a browser and a block without lifecycle
      actions gives a trace that launched and closes exactly once, at the end. */
  lemma ClosedOnceAtEnd(launch: seq<Action>, block: seq<Action>)
    requires forall a :: a in launch ==> a.Launch?
    requires Launched(launch) && NoLifecycleActions(block)
    ensures var t := launch + block + [Close];
            Launched(t) && Closes(t) == 1 && t == t[..|t| - 1] + [Close]
  {
    var t := launch + block + [Close];
    NoClosesWithoutClose(launch);
    NoClosesWithoutClose(block);
    ClosesConcat(launch, block);
    ClosesConcat(launch + block, [Close]);
    var a :| a in launch && a.Launch? && a.launched;
    assert a in t;
    assert t[..|t| - 1] == launch + block;
  }

  /** `uploadToSoundCloud`. */
  function Upload(opts: UploadOptions, w: World): (r: Run)
    // A missing file is reported before anything else happens.
    ensures !w.fileExists ==> r == Run(Returned(Failure(FileNotFoundMessage)), [])
    // A cookie-loading error escapes before any browser is launched.
    ensures w.fileExists && Cookies.LoadCookies(w.cookieHost).Err? ==>
              r == Run(Threw(Cookies.ErrorMessage(Cookies.LoadCookies(w.cookieHost).error)), [])
    // Once a browser has been launched it is closed exactly once, as the very last action;
    // a run that launched nothing closes nothing.
    ensures Closes(r.trace) == (if Launched(r.trace) then 1 else 0)
    ensures Launched(r.trace) ==> r.trace == r.trace[..|r.trace| - 1] + [Close]
    // After the cookies were loaded, only a failed launch makes an error escape.
    ensures r.outcome.Threw? && |r.trace| > 0 ==> !Launched(r.trace) && w.plainLaunchError == Some(r.outcome.message)
    ensures r.outcome.Returned? <==> !w.fileExists || Launched(r.trace)
    // With the file present and the cookies loaded, the response is the settled end of the
    // guarded block, or the launch error escapes.
    ensures w.fileExists && Cookies.LoadCookies(w.cookieHost).Ok? ==>
              var block := GuardedBlock(opts, Cookies.LoadCookies(w.cookieHost).value, w);
              var launch := StartBrowser(w);
              && (launch.error.None? ==>
                    r == Run(Returned(Settle(block.end)), launch.trace + block.trace + [Close]))
              && (launch.error.Some? ==> r == Run(Threw(launch.error.value), launch.trace))
  {
    if !w.fileExists then Run(Returned(Failure(FileNotFoundMessage)), [])
    else match Cookies.LoadCookies(w.cookieHost)
      case Err(e) => Run(Threw(Cookies.ErrorMessage(e)), [])
      case Ok(cookies) => LaunchAndRun(opts, cookies, w)
  }

  /** A run that lands on a sign-in page reports the expired session, never touches the upload
      form, and still closes the browser exactly once. */
  lemma SessionExpiredSkipsForm(opts: UploadOptions, w: World)
    requires w.fileExists && Cookies.LoadCookies(w.cookieHost).Ok? && StartBrowser(w).error.None?
    requires w.sessionError.None? && NavigateToUpload(w.navigation).error.None?
    requires SignInRedirect(w.urlAfterNavigation)
    ensures Upload(opts, w).outcome == Returned(Failure(SessionExpiredMessage))
    ensures NoFormActions(Upload(opts, w).trace)
    ensures Closes(Upload(opts, w).trace) == 1
  {
    var launch := StartBrowser(w);
    var block := GuardedBlock(opts, Cookies.LoadCookies(w.cookieHost).value, w);
    assert Upload(opts, w).trace == launch.trace + block.trace + [Close];
    assert Launched(launch.trace);
  }

  /** A run in which every driver call succeeds and the track link appears reports the
      published track: its resolved URL and the id read from it. */
  lemma PublishedRunReturnsTrack(opts: UploadOptions, w: World, href: Option<string>)
    requires w.fileExists && Cookies.LoadCookies(w.cookieHost).Ok? && StartBrowser(w).error.None?
    requires w.sessionError.None? && NavigateToUpload(w.navigation).error.None?
    requires !SignInRedirect(w.urlAfterNavigation) && w.fileInputError.None?
    requires w.trackLink == Some(href)
    ensures Upload(opts, w).outcome == Returned(Success(TrackUrl(href), TrackId(TrackUrl(href))))
    ensures Closes(Upload(opts, w).trace) == 1
  {
    var cookies := Cookies.LoadCookies(w.cookieHost).value;
    assert GuardedBlock(opts, cookies, w).end == Done(Finish(w.trackLink, w.finalUrl));
    assert Launched(StartBrowser(w).trace);
  }

  /** An error raised after launch never escapes: it is returned as a failure carrying its
      classified message. */
  lemma RaisedErrorsAreClassified(opts: UploadOptions, w: World)
    requires w.fileExists && Cookies.LoadCookies(w.cookieHost).Ok? && StartBrowser(w).error.None?
    requires GuardedBlock(opts, Cookies.LoadCookies(w.cookieHost).value, w).end.Raised?
    ensures Upload(opts, w).outcome ==
              Returned(Failure(ErrorClassifier.ErrorMessage(
                GuardedBlock(opts, Cookies.LoadCookies(w.cookieHost).value, w).end.message)))
  {
  }

  /** The kinds of action whose occurrences along a run are bounded. */
  datatype Kind = GotoKind | FillKind | SaveClickKind

  predicate OfKind(a: Action, k: Kind) {
    match k
    case GotoKind => a.Goto?
    case FillKind => a.Fill?
    case SaveClickKind => a.Click? || a.ClickSaveRole?
  }

  /** Number of actions of `trace` of kind `k`. */
  function CountOf(trace: seq<Action>, k: Kind): nat {
    if |trace| == 0 then 0 else (if OfKind(trace[0], k) then 1 else 0) + CountOf(trace[1..], k)
  }

  lemma {:induction false} CountOfConcat(a: seq<Action>, b: seq<Action>, k: Kind)
    ensures CountOf(a + b, k) == CountOf(a, k) + CountOf(b, k)
  {
    if |a| == 0 {
      assert a + b == b;
    } else {
      assert (a + b)[0] == a[0];
      assert (a + b)[1..] == a[1..] + b;
      CountOfConcat(a[1..], b, k);
    }
  }

  lemma {:induction false} CountOfAtMostLength(t: seq<Action>, k: Kind)
    ensures CountOf(t, k) <= |t|
    ensures (forall a :: a in t ==> OfKind(a, k)) ==> CountOf(t, k) == |t|
    ensures (forall a :: a in t ==> !OfKind(a, k)) ==> CountOf(t, k) == 0
  {
    if |t| > 0 {
      assert t[0] in t;
      assert forall a :: a in t[1..] ==> a in t;
      CountOfAtMostLength(t[1..], k);
    }
  }

  lemma {:induction false} NoWaitsWaitNothing(t: seq<Action>)
    requires forall a :: a in t ==> !a.Wait?
    ensures WaitedMs(t) == 0
  {
    if |t| > 0 {
      assert t[0] in t;
      assert forall a :: a in t[1..] ==> a in t;
      NoWaitsWaitNothing(t[1..]);
    }
  }

  /** The navigation loop makes one `page.goto` per attempt. */
  lemma {:induction false} AttemptTraceGotos(a: nat, n: nat)
    requires n >= 1
    ensures CountOf(AttemptTrace(a, n), GotoKind) == n
    decreases n
  {
    assert CountOf([Goto(a)], GotoKind) == 1;
    if n > 1 {
      assert CountOf([Wait(BackoffMs(a))], GotoKind) == 0;
      CountOfConcat([Goto(a)], [Wait(BackoffMs(a))], GotoKind);
      CountOfConcat([Goto(a), Wait(BackoffMs(a))], AttemptTrace(a + 1, n - 1), GotoKind);
      AttemptTraceGotos(a + 1, n - 1);
    }
  }

  lemma CountOfFour(a: seq<Action>, b: seq<Action>, c: seq<Action>, d: seq<Action>, k: Kind)
    ensures CountOf(a + b + c + d, k) == CountOf(a, k) + CountOf(b, k) + CountOf(c, k) + CountOf(d, k)
  {
    CountOfConcat(a, b, k);
    CountOfConcat(a + b, c, k);
    CountOfConcat(a + b + c, d, k);
  }

  /** The form part waits only the fixed 5000 ms after setting the file. */
  lemma FormWaits(opts: UploadOptions, w: World)
    ensures WaitedMs(FormSteps(opts, w).trace) == AfterFileWaitMs
  {
    var title := TitleStep(opts.title, w.visible);
    var save := SaveStep(w.visible, w.roleButtonVisible);
    var head := [SetFiles(opts.filePath), Wait(AfterFileWaitMs)];
    var tail := [AwaitTrackLink];
    NoWaitsWaitNothing(title);
    NoWaitsWaitNothing(save);
    assert WaitedMs([SetFiles(opts.filePath)]) == 0 && WaitedMs([Wait(AfterFileWaitMs)]) == AfterFileWaitMs;
    WaitedMsConcat([SetFiles(opts.filePath)], [Wait(AfterFileWaitMs)]);
    assert [SetFiles(opts.filePath)] + [Wait(AfterFileWaitMs)] == head;
    assert WaitedMs(tail) == 0;
    WaitedMsConcat(head, title);
    WaitedMsConcat(head + title, save);
    WaitedMsConcat(head + title + save, tail);
  }

  /** Counting over the form part: only the title and save steps contribute. */
  lemma FormCountOf(opts: UploadOptions, w: World, k: Kind)
    ensures CountOf(FormSteps(opts, w).trace, k) ==
              CountOf(TitleStep(opts.title, w.visible), k) + CountOf(SaveStep(w.visible, w.roleButtonVisible), k)
  {
    var head := [SetFiles(opts.filePath), Wait(AfterFileWaitMs)];
    var tail := [AwaitTrackLink];
    CountOfFour(head, TitleStep(opts.title, w.visible), SaveStep(w.visible, w.roleButtonVisible), tail, k);
    CountOfAtMostLength(head, k);
    CountOfAtMostLength(tail, k);
  }

  /** Counts over a title step of fills only and a save step of save clicks only, each of at
      most one action. */
  lemma StepCounts(title: seq<Action>, save: seq<Action>)
    requires |title| <= 1 && forall a :: a in title ==> a.Fill?
    requires |save| <= 1 && forall a :: a in save ==> a.Click? || a.ClickSaveRole?
    ensures CountOf(title, GotoKind) + CountOf(save, GotoKind) == 0
    ensures CountOf(title, FillKind) + CountOf(save, FillKind) == |title|
    ensures CountOf(title, SaveClickKind) + CountOf(save, SaveClickKind) == |save|
  {
    CountOfAtMostLength(title, GotoKind);
    CountOfAtMostLength(title, FillKind);
    CountOfAtMostLength(title, SaveClickKind);
    CountOfAtMostLength(save, GotoKind);
    CountOfAtMostLength(save, FillKind);
    CountOfAtMostLength(save, SaveClickKind);
  }

  /** The form part makes no `goto`, at most one fill, only with a truthy title, and at most one
      save click. */
  lemma FormCounts(opts: UploadOptions, w: World)
    ensures CountOf(FormSteps(opts, w).trace, GotoKind) == 0
    ensures CountOf(FormSteps(opts, w).trace, FillKind) <= 1
    ensures CountOf(FormSteps(opts, w).trace, FillKind) == 1 ==> Truthy(opts.title)
    ensures CountOf(FormSteps(opts, w).trace, SaveClickKind) <= 1
  {
    var title := TitleStep(opts.title, w.visible);
    var save := SaveStep(w.visible, w.roleButtonVisible);
    assert !Truthy(opts.title) ==> title == [];
    FormCountOf(opts, w, GotoKind);
    FormCountOf(opts, w, FillKind);
    FormCountOf(opts, w, SaveClickKind);
    StepCounts(title, save);
  }

  /** `n` attempts make `n` gotos and touch no form field. */
  lemma AttemptTraceCounts(a: nat, n: nat)
    requires n >= 1
    ensures CountOf(AttemptTrace(a, n), GotoKind) == n
    ensures CountOf(AttemptTrace(a, n), FillKind) == 0
    ensures CountOf(AttemptTrace(a, n), SaveClickKind) == 0
  {
    AttemptTraceGotos(a, n);
    AttemptTraceHasOnlyGotosAndWaits(a, n);
    CountOfAtMostLength(AttemptTrace(a, n), FillKind);
    CountOfAtMostLength(AttemptTrace(a, n), SaveClickKind);
  }

  /** The navigation loop makes at most three `page.goto` calls and touches no form field. */
  lemma NavCounts(nav: nat -> Option<string>)
    ensures CountOf(NavigateToUpload(nav).trace, GotoKind) <= MaxAttempts
    ensures CountOf(NavigateToUpload(nav).trace, FillKind) == 0
    ensures CountOf(NavigateToUpload(nav).trace, SaveClickKind) == 0
  {
    var r := Navigate(nav, 1);
    assert NavigateToUpload(nav) == r;
    AttemptTraceCounts(1, r.attempts);
  }

  /** The run gets past navigation, the sign-in check and the file input to the form. */
  predicate ReachesForm(w: World) {
    w.sessionError.None? && NavigateToUpload(w.navigation).error.None?
    && !SignInRedirect(w.urlAfterNavigation) && w.fileInputError.None?
  }

  /** Counting over the guarded block: the navigation loop, and the form part when reached. */
  lemma BlockCountOf(opts: UploadOptions, cookies: seq<Cookies.Cookie>, w: World, k: Kind)
    ensures CountOf(GuardedBlock(opts, cookies, w).trace, k) ==
              (if w.sessionError.Some? then 0 else CountOf(NavigateToUpload(w.navigation).trace, k))
              + (if ReachesForm(w) then CountOf(FormSteps(opts, w).trace, k) else 0)
  {
    var open := [OpenSession(cookies)];
    CountOfAtMostLength(open, k);
    if w.sessionError.None? {
      var nav := NavigateToUpload(w.navigation).trace;
      CountOfConcat(open, nav, k);
      if NavigateToUpload(w.navigation).error.None? && !SignInRedirect(w.urlAfterNavigation) {
        var rest := if w.fileInputError.Some? then [] else FormSteps(opts, w).trace;
        CountOfAtMostLength([AwaitFileInput], k);
        CountOfConcat(open + nav, [AwaitFileInput], k);
        CountOfConcat(open + nav + [AwaitFileInput], rest, k);
        assert CountOf([], k) == 0;
      }
    }
  }

  /** The guarded block's waits: at most the navigation back-off and the fixed wait after the
      file is set. */
  lemma BlockWaits(opts: UploadOptions, cookies: seq<Cookies.Cookie>, w: World)
    ensures WaitedMs(GuardedBlock(opts, cookies, w).trace) <= 6000 + AfterFileWaitMs
  {
    var open := [OpenSession(cookies)];
    assert WaitedMs(open) == 0;
    if w.sessionError.None? {
      var nav := NavigateToUpload(w.navigation).trace;
      NavigationBounds(w.navigation);
      WaitedMsConcat(open, nav);
      if NavigateToUpload(w.navigation).error.None? && !SignInRedirect(w.urlAfterNavigation) {
        var rest := if w.fileInputError.Some? then [] else FormSteps(opts, w).trace;
        assert WaitedMs([AwaitFileInput]) == 0 && WaitedMs([]) == 0;
        FormWaits(opts, w);
        WaitedMsConcat(open + nav, [AwaitFileInput]);
        WaitedMsConcat(open + nav + [AwaitFileInput], rest);
      }
    }
  }

  /** The run launched a browser, so the guarded block ran. */
  predicate RanBlock(w: World) {
    w.fileExists && Cookies.LoadCookies(w.cookieHost).Ok? && StartBrowser(w).error.None?
  }

  /** Launch calls and the final close neither wait nor count. */
  lemma LaunchAndCloseAddNothing(launch: seq<Action>, block: seq<Action>, k: Kind)
    requires forall a :: a in launch ==> a.Launch?
    ensures CountOf(launch, k) == 0 && WaitedMs(launch) == 0
    ensures CountOf(launch + block + [Close], k) == CountOf(block, k)
    ensures WaitedMs(launch + block + [Close]) == WaitedMs(block)
  {
    CountOfAtMostLength(launch, k);
    NoWaitsWaitNothing(launch);
    CountOfAtMostLength([Close], k);
    assert WaitedMs([Close]) == 0;
    CountOfConcat(launch, block, k);
    CountOfConcat(launch + block, [Close], k);
    WaitedMsConcat(launch, block);
    WaitedMsConcat(launch + block, [Close]);
  }

  /** Counting over a run: only the guarded block contributes, and only when it ran; the same
      holds for the fixed waits. */
  lemma RunCountOf(opts: UploadOptions, w: World, k: Kind)
    ensures CountOf(Upload(opts, w).trace, k) ==
              if RanBlock(w) then CountOf(GuardedBlock(opts, Cookies.LoadCookies(w.cookieHost).value, w).trace, k) else 0
    ensures WaitedMs(Upload(opts, w).trace) ==
              if RanBlock(w) then WaitedMs(GuardedBlock(opts, Cookies.LoadCookies(w.cookieHost).value, w).trace) else 0
  {
    if w.fileExists && Cookies.LoadCookies(w.cookieHost).Ok? {
      var block := GuardedBlock(opts, Cookies.LoadCookies(w.cookieHost).value, w).trace;
      LaunchAndCloseAddNothing(StartBrowser(w).trace, block, k);
    } else {
      assert Upload(opts, w).trace == [];
    }
  }

  /** What a whole run adds up to, whatever the world: at most three `page.goto` calls, at most
      one title fill and only for a truthy title, at most one save click, and at most 11 s of
      fixed waits. */
  lemma RunBounds(opts: UploadOptions, w: World)
    ensures CountOf(Upload(opts, w).trace, GotoKind) <= MaxAttempts
    ensures CountOf(Upload(opts, w).trace, FillKind) <= 1
    ensures CountOf(Upload(opts, w).trace, FillKind) == 1 ==> Truthy(opts.title)
    ensures CountOf(Upload(opts, w).trace, SaveClickKind) <= 1
    ensures WaitedMs(Upload(opts, w).trace) <= 6000 + AfterFileWaitMs
  {
    RunCountOf(opts, w, GotoKind);
    RunCountOf(opts, w, FillKind);
    RunCountOf(opts, w, SaveClickKind);
    if RanBlock(w) {
      var cookies := Cookies.LoadCookies(w.cookieHost).value;
      BlockBoundsCounts(opts, cookies, w);
      BlockWaits(opts, cookies, w);
    }
  }

  /** The guarded block's counts, from the navigation loop's and the form part's. */
  lemma BlockBoundsCounts(opts: UploadOptions, cookies: seq<Cookies.Cookie>, w: World)
    ensures CountOf(GuardedBlock(opts, cookies, w).trace, GotoKind) <= MaxAttempts
    ensures CountOf(GuardedBlock(opts, cookies, w).trace, FillKind) <= 1
    ensures CountOf(GuardedBlock(opts, cookies, w).trace, FillKind) == 1 ==> Truthy(opts.title)
    ensures CountOf(GuardedBlock(opts, cookies, w).trace, SaveClickKind) <= 1
  {
    BlockCountOf(opts, cookies, w, GotoKind);
    BlockCountOf(opts, cookies, w, FillKind);
    BlockCountOf(opts, cookies, w, SaveClickKind);
    NavCounts(w.navigation);
    FormCounts(opts, w);
  }
}
